=== FILE: README.md ===
# sciplot theme resolution, in Dafny

This project models the core of **sciplot**, a small matplotlib styling
library, as pure Dafny functions, and proves properties about them. The core
is the `style` context manager of `sciplot/main.py`, which does three things:

- It parses the requested themes: a name, a dict of custom parameters, or a list of names.
- It applies the `'clean'`/`'default'` rule and rejects unknown names.
- It orders the themes by `PRIORITY_THEME_LST` and merges their preset
  parameter files with `dict.update`. The winning value of each key comes
  from the highest-priority theme that defines it. A dict of custom
  parameters is never combined with a theme: alone it selects no theme and
  is applied by itself over the renderer state, and a list mixing a dict
  with names raises.

The model also covers the global state that `style` touches:

- `RC_PARAMS`;
- the `dark_mode` flag that `get_color_lst` reads;
- the renderer's parameter table, which `rc_context` saves and restores.

Next to this core sit three pure helpers, each modelled as written:

- the colour-list choice of `get_color_lst`;
- the legend anchor and `loc` mirroring of `set_legend`;
- the time-stamped path of `save_time_stamped_figure`.

`src/main.py` is an older revision of the same library. It has a fixed list of
parameter files instead of themes, and simpler colour and legend rules. Module
`Legacy` models it and relates it to the newer revision. Its
`save_time_stamped_figure` (src/main.py:185-197) is the same code as the newer
one, so `Paths.TimeStampedPath` models both. Module `Version` models the
`x.y.z` argument check of `update_version.py`.

Modules, one per source concern:

- `Results`: `Option` and `Result`.
- `Lists`: `list.remove`, `list(set(...))`, `reverse`, `[:-1]`.
- `Strings`: `in`, `str.replace`.
- `Params`: parameter maps and the `dict.update` fold.
- `Themes`: parsing, the default rule, validation, stems and the merge.
- `Style`: entering and leaving `style`.
- `Colors`, `Legend`, `Paths`: the three helpers.
- `Legacy`: the older revision.
- `Version`: the version check.

External inputs are parameters:

- the preset table `THEME_PARAMS`, keyed by file stem;
- the loaded YAML files of the older revision, keyed by file name;
- the seaborn palette, as the list of `n` colours it returns;
- the timestamp string;
- the `dark_background` style table.

Four behaviours of the code are modelled as written:

- Unknown theme names raise instead of being skipped.
- A list holding a dict raises a `TypeError`, because the code builds a Python
  set of dicts.
- The globals are reset only when the `with` block ends normally.
- Theme names are not case-folded.

## Model

| member | source | states |
|---|---|---|
| Lists.RemoveFirst | sciplot/main.py:98-102 | `list.remove(x)` on a list holding `x` drops exactly one occurrence of `x` and keeps every other element with its multiplicity |
| Lists.RemoveFirstCutsFirst | sciplot/main.py:98-102 | the occurrence removed is the first one: the result is the list before it followed by the list after it, in the original order |
| Lists.FirstIndex | sciplot/main.py:98-102 | the index `list.remove` acts on holds `x`, and no earlier position does |
| Lists.RemoveFirstNoDup | sciplot/main.py:98-102 | on a duplicate-free list, removing `x` leaves a duplicate-free list whose set of elements is the old set minus `x` |
| Lists.Dedup | sciplot/main.py:87 | `list(set(names))` is duplicate-free and holds exactly the names of the input |
| Lists.Reverse | sciplot/main.py:140 | `list.reverse()` puts element `i` at position `n-1-i` and keeps the same multiset |
| Lists.ReverseMembers | sciplot/main.py:140 | reversing neither adds nor loses a member |
| Lists.DropLast | sciplot/main.py:288 | `[:-1]` removes exactly the last element, and leaves an empty list empty |
| Strings.ReplaceAbsent | sciplot/main.py:240 | `str.replace` of a pattern that does not occur returns the string unchanged |
| Strings.ReplaceLength | sciplot/main.py:238-243 | `str.replace` with a replacement no longer than the pattern never lengthens the string, and with one no shorter never shortens it |
| Strings.ContainsIffOccurs | sciplot/main.py:238 | Python's `in` on strings holds exactly when some slice of the string as long as the pattern equals it |
| Strings.ReplaceFound | sciplot/main.py:238-243 | when the pattern occurs, `str.replace` puts the replacement into the result, and a shorter (longer) replacement makes the result strictly shorter (longer) |
| Strings.ReplaceLeavesNoPattern | sciplot/main.py:238-243 | after `replace('right', 'left')`, and after `replace('left', 'right')`, the replaced word no longer occurs: the replacement cannot recreate it |
| Strings.PrefixBeforeReplacement | sciplot/main.py:240 | a prefix that shares no first letter with the replacement survives a `replace` only if it was there before |
| Strings.ReplaceRoundTrip | sciplot/main.py:238-243 | replacing `pat` by `rep` and then `rep` by `pat` restores any string that held no `rep`, when `rep` does not repeat its first letter; so mirroring `'right'` to `'left'` can be undone |
| Params.UpdateAllLastWriter | sciplot/main.py:145-147 | the `dict.update` fold defines a key exactly when some map, or the start, defines it, and gives it the value of the last map that does |
| Params.UpdateAllAppend | sciplot/main.py:176-178 | updating with `a` and then with `b` is updating with `a + b`, so the custom dicts continue the preset fold |
| Params.LastWriterAppend | sciplot/main.py:145-147 | the keys a later block of maps defines are decided by that block alone |
| Params.LastWriterUntouched | src/main.py:106-107 | a key no map defines keeps the starting table's entry, or stays undefined |
| Params.UpdateAll | sciplot/main.py:145-147 | the `dict.update` fold loses no key of the start, holds every key of every map, holds no key that came from nowhere, and keeps the last map's values |
| Params.LastWriterIsLast | src/main.py:106-107 | the map at index `i` decides a key when no later map defines it |
| Themes.NamesOf | sciplot/main.py:75-77 | the names collected from a list are exactly its string elements |
| Themes.CustomsOf | sciplot/main.py:78-79 | no custom dict is collected exactly when the list holds no dict |
| Themes.ParseThemes | sciplot/main.py:65-92 | a name gives a one-name list; a dict gives one custom dict; another type raises; a list raises exactly when it holds a non-name, with the item-type error exactly when some element is neither a string nor a dict, and the unhashable-dict error when it holds a dict and nothing of another type; an empty list gives no names and no customs; a list of names gives a duplicate-free list of exactly those names |
| Themes.DefaultThemes | sciplot/main.py:95-107 | with `'clean'`, the result is the list with one `'clean'` and one `'default'` taken out; without it, the result is the list with `'default'` added exactly when it was missing |
| Themes.DefaultThemesKeepsOrder | sciplot/main.py:104-107 | without `'clean'`, the requested themes come first and in their order |
| Themes.DefaultThemesRule | sciplot/main.py:95-107 | on a duplicate-free list, `'clean'` removes itself and `'default'`, and otherwise `'default'` is added; the result has no duplicates |
| Themes.ThemeExists | sciplot/main.py:130-133 | a theme exists exactly when it is `no-latex`, `serif`, `sans-serif`, `dark` or `default`; `'clean'` is not a theme |
| Themes.FirstUnknown | sciplot/main.py:165-168 | no name is reported exactly when every name is a theme of `PRIORITY_THEME_LST`; a reported name is one of the list and unknown |
| Themes.Keep | sciplot/main.py:171 | `[t for t in PRIORITY_THEME_LST if t in lst]` is in priority order and holds exactly the priority themes that were requested |
| Themes.ValidatedThemes | sciplot/main.py:165-171 | validation succeeds exactly when every name exists; it then returns exactly the requested themes in priority order; otherwise it reports a requested name that does not exist |
| Themes.ResolveThemes | sciplot/main.py:157-171 | parse errors propagate; a success is a subsequence of `PRIORITY_THEME_LST` of existing themes with at most one custom dict; any other error is an unknown theme |
| Themes.ResolveNames | sciplot/main.py:161-171 | for names only, resolution succeeds iff every name is a theme or `'clean'`; the themes are the default rule applied to the set of requested names, so the set iteration order is irrelevant; an error names a requested unknown theme |
| Themes.ThemeStems | sciplot/main.py:110-127 | every theme pulls in between one and five distinct preset stems, and only `default` pulls in five |
| Themes.WithoutMembers | sciplot/main.py:142 | the filter keeps exactly the stems outside the excluded list and never adds one |
| Themes.CollectStems | sciplot/main.py:139-142 | no collected stem is excluded, and each theme contributes at most five stems |
| Themes.StemFilterIsVacuous | sciplot/main.py:141-142 | the `param not in prio_theme_lst` filter never removes a stem, because no stem is a theme name |
| Themes.CollectStemsMembers | sciplot/main.py:110-127 | a stem is collected exactly when one of the themes pulls it in |
| Themes.CollectStemsAppend | sciplot/main.py:141-142 | collecting over two theme lists is collecting over each in turn |
| Themes.FirstMissing | sciplot/main.py:146-147 | no stem is reported exactly when the preset table holds every stem; a reported stem is absent |
| Themes.PresetMapsAppend | sciplot/main.py:146-147 | the preset maps of two stem lists are those of each in turn |
| Themes.ParametersFor | sciplot/main.py:136-149 | a failed merge is a `KeyError` for a stem that some selected theme pulls in and the table lacks |
| Themes.ParametersForOkIffCovered | sciplot/main.py:136-149 | the merge succeeds exactly when every stem of every selected theme is in the preset table |
| Themes.PriorityWinner | sciplot/main.py:136-149 | a key of the merged map takes its value from the highest-priority theme whose presets define it, so `no-latex` beats `serif` beats `dark` beats `default` |
| Themes.WinnerByStems | sciplot/main.py:139-147 | folding the stems of the reversed priority list agrees key by key with walking the themes from the highest priority down |
| Style.EnterStyle | sciplot/main.py:157-187 | resolution errors leave every global unchanged; dark mode ends on exactly when it was on or `'dark'` was resolved; after a successful resolution the scope opens exactly when every stem of every resolved theme has a preset; a failed merge is a missing preset and leaves `RC_PARAMS` alone, with the renderer table holding the dark background exactly when `'dark'` was resolved; on success, `rc_context` saves the renderer table, with the dark background when `'dark'` was resolved, and applies `RC_PARAMS` over it |
| Style.ExitStyle | sciplot/main.py:186-192 | the saved table is written back whether or not the block raised; a normal exit empties `RC_PARAMS` and turns dark mode off; a raised block leaves both as they were |
| Style.StyleRoundTrip | sciplot/main.py:182-192 | entering and leaving normally restores every parameter the renderer had, except that the dark background stays applied; the key set grows only by the keys the style added; with no new keys the table is restored exactly |
| Style.RestoreOver | sciplot/main.py:186-187 | writing a saved table back over its updated copy restores every saved key and keeps only the added keys |
| Style.DarkResolved | sciplot/main.py:161-171 | a request of known names that asks for `'dark'` resolves, and `'dark'` is among the resolved themes |
| Style.RaisedBlockKeepsDarkMode | sciplot/main.py:186-192 | with every preset installed, a request of known names that asks for `'dark'` opens the block; if the block raises, dark mode stays on and `get_color_lst(1)` answers white; a normal exit turns dark mode off |
| Style.MissingPresetLeaksDarkMode | sciplot/main.py:115-118 | a request of known names that asks for `'dark'`, with no `colors_dark` preset, raises a missing-preset error, yet dark mode is already on and the dark background already applied |
| Style.DarkModeIffRequested | sciplot/main.py:115-118 | for names only, starting outside dark mode, dark mode is on after entering iff `'dark'` was asked for and every name is a theme or `'clean'` |
| Style.CustomAlone | sciplot/main.py:70-71 | a dict on its own becomes the whole `RC_PARAMS`, without the default bundle, and dark mode is untouched |
| Style.NothingApplied | sciplot/main.py:84-85 | `'clean'` alone, and the empty list, make `RC_PARAMS` empty and change nothing else |
| Style.ResolveDefault | sciplot/main.py:153-154 | the default argument `'default'` resolves to the default theme alone |
| Style.DefaultParameters | sciplot/main.py:113-114 | the default theme merges its five stems in order |
| Style.DefaultArgument | sciplot/main.py:153-187 | `style()` with the default argument makes `RC_PARAMS` the in-order merge of `basic`, `typesetting`, `colors_light`, `fonts_cm_sans_serif` and `latex_sans_serif` |
| Style.CustomBeatsThemes | sciplot/main.py:171-179 | key by key, `RC_PARAMS` takes the custom dict's value where it defines one and the highest-priority theme's value elsewhere; with `Style.CustomNeverWithThemes`, a custom dict is thus applied alone |
| Style.CustomNeverWithThemes | sciplot/main.py:65-92 | a resolved request that carries a custom dict selects no theme: a lone dict leaves the theme list empty, and a list mixing a dict with names raises |
| Colors.ColorList | sciplot/main.py:273-292 | a zero or non-int count raises, and only those raise; otherwise the length is the count; one colour is black, or white in dark mode; more than four colourful ones are the palette; dark mode without `colorful` ends in white; every other case starts with black; only palette colours, black and white appear |
| Colors.ColorsDistinct | sciplot/main.py:281-292 | with a palette of distinct colours that are neither black nor white, every colour list has distinct colours |
| Legend.HorizontalAnchor | sciplot/main.py:238-245 | the horizontal anchor is 1.04 exactly for `'right'`, 0.94 exactly for `'left'` without `'right'`, and 0.5 exactly for neither |
| Legend.VerticalAnchor | sciplot/main.py:247-252 | the vertical anchor is 1.0 exactly for `'upper'`, 0.0 exactly for `'lower'` without `'upper'`, and 0.5 exactly for neither |
| Legend.MirrorLoc | sciplot/main.py:238-243 | after mirroring, a `loc` containing `'right'` no longer contains it; failing that, a `loc` containing `'left'` no longer contains it; a `loc` with neither is unchanged; the swapped-in word occurs in the result, which is shorter after `'right'` becomes `'left'` and longer after the reverse; a `loc` naming exactly one side is restored by mirroring the result back |
| Legend.LegendPlacement | sciplot/main.py:237-252 | inside the plot, `loc` passes unchanged with no anchor; outside, x is 1.04, 0.94 or 0.5 for `'right'`, `'left'` or neither in the given `loc`, whose side word is swapped for the other, leaving a shorter or longer `loc` that can be mirrored back; y is 1.0, 0.0 or 0.5 exactly as the mirrored `loc` says `'upper'`, `'lower'` or neither |
| Legend.LowerRightOutside | sciplot/main.py:237-252 | `'lower right'` outside the plot is anchored at (1.04, 0) with `loc` `'lower left'` |
| Legend.UpperLeftOutside | sciplot/main.py:237-252 | `'upper left'` outside the plot is anchored at (0.94, 1) with `loc` `'upper right'` |
| Paths.StripExtension | sciplot/main.py:302 | `re.sub(r'\.png$', '', name)` removes a trailing extension, or one followed by a final newline, and otherwise leaves the name alone |
| Paths.PlotStem | sciplot/main.py:301-304 | a name ending in `.png` is the stem plus `.png`; a name mentioning `png` and ending in `.png` plus a newline keeps the newline; any other name mentioning `png` is kept, even one ending in `.pdf`; the same holds for `.pdf` when `png` is not mentioned; a name mentioning neither is kept |
| Paths.AbsoluteStem | sciplot/main.py:301-304 | the stem of a name starting with `/` still starts with `/` |
| Paths.JoinPath | sciplot/main.py:309-312 | `os.path.join` returns an absolute leaf as it is; otherwise the result starts with the directory, ends with the leaf, and has exactly one `/` between them, added only when the directory does not already end in one |
| Paths.TimeStampedPath | sciplot/main.py:300-312 | the path ends in `_<timestamp>.<file type>`; it is the bare file name when no directory is given or when the name is absolute; otherwise it is the directory, one `/` unless the directory ends in one, and the file name, with nothing else in between |
| Paths.StemRebuildsName | sciplot/main.py:301-304 | the stem plus the extension it lost, if any, is the name again |
| Paths.PngNotDoubled | sciplot/main.py:301-307 | a name already ending in `.png`, saved as png, does not get the extension twice |
| Paths.TmpExample | sciplot/main.py:300-312 | `plot.png` in `/tmp` is saved as `/tmp/plot_<timestamp>.png` |
| Paths.PdfKeptWhenNameMentionsPng | sciplot/main.py:301-304 | a name that mentions `png` keeps a trailing `.pdf`, because the `pdf` branch is never reached |
| Legacy.ParameterFiles | src/main.py:20-81 | success iff every required file exists; the maps of basic, colours, typesetting and fonts come in that order, followed by LaTeX only when asked for, so there are 4 or 5 of them; a failure carries the message of the first missing file |
| Legacy.RequiredFiles | src/main.py:32-79 | four distinct `.yml` files are read, and a fifth, also distinct, when LaTeX is asked for |
| Legacy.MissingMessages | src/main.py:32-79 | every file has a non-empty message; the colours and typesetting files share one, and so do the font and LaTeX files |
| Legacy.MissingColorsReportedAsTypesetting | src/main.py:40-48 | a missing colours file is reported as missing typesetting parameters |
| Legacy.SciplotStyle | src/main.py:84-109 | applying the style succeeds iff all five files of the font style exist, LaTeX included; the renderer keeps every key it had, and each key takes the value of the last file that defines it, or keeps its old value; a failure carries the message of the first missing file |
| Legacy.SciplotStyleIgnoresLatexAndTheme | src/main.py:97-104 | neither `use_latex` nor `theme` changes the outcome |
| Legacy.SciplotStyleLaterFilesWin | src/main.py:102-107 | the LaTeX file decides every key it defines, then the font file; a key no file defines keeps the renderer's value |
| Legacy.SciplotStyleLastFileWins | src/main.py:102-107 | whichever of basic, colours, typesetting, fonts and LaTeX is the last to define a key gives it its value, so typesetting beats colours and colours beat basic |
| Params.LastWriterKeepsStart | src/main.py:106-107 | a key the renderer already defines stays defined through the updates |
| Legacy.ColorList | src/main.py:165-177 | a count of at least one gives that many colours; zero gives `['000000']`; more than four without black gives the palette; one gives `['000000']`; every other case is `000000` followed by all but the last palette colour; only palette colours and `000000` appear |
| Legacy.ColorRevisionsAgree | src/main.py:165-177 | outside dark mode and with `colorful` as `not include_black`, both revisions choose the same colours position by position, apart from the spelling of black |
| Legacy.LegendPlacement | src/main.py:131-144 | `loc` passes unchanged, with an anchor exactly when outside the plot; x is 1.04, 0.94 or 0.5 as `loc` says `'right'`, `'left'` without `'right'`, or neither; y is 1.0, 0.0 or 0.5 as the same `loc` says `'upper'`, `'lower'` without `'upper'`, or neither |
| Legacy.LegendRevisionsAgree | src/main.py:131-144 | both revisions give the same horizontal anchor, and the same placement when `loc` names neither side |
| Version.DigitRun | update_version.py:6 | greedy `[0-9]+` stops exactly at the first non-digit |
| Version.DigitRunExact | update_version.py:6 | a digit run that stops at a non-digit is the greedy run |
| Version.MatchesVersion | update_version.py:6 | a string the pattern matches has at least five characters and starts with a digit |
| Version.MatchesVersionIffShape | update_version.py:6 | the greedy match succeeds exactly when the string begins with digits, a dot, digits, a dot, digits |
| Version.VersionArg | update_version.py:31-38 | an argument beginning with `x.y.z` is returned unchanged; otherwise `v` followed by `x.y.z` loses its `v`; anything else raises; every accepted value itself begins with `x.y.z` |
| Version.VersionArgIdempotent | update_version.py:31-38 | checking an accepted value again returns it unchanged |
| Version.TrailingTextAccepted | update_version.py:31-38 | the match is anchored only at the start: `1.2.3-beta` is accepted as it is, `v10.0.1` becomes `10.0.1`, and `1.2` is rejected |

## Left out

- File loading: `_load_theme_parameters`, the YAML reads of `get_parameters_lst`, `get_parameters_dir`, `print_locales` and `print_parameters` are I/O. The loaded tables are parameters.
- Matplotlib and seaborn calls are foreign library code.
  - `plt.style.use` is an update with a given table; its list of ignored keys is not modelled.
  - `rc_context` is a save and restore of the table; the validation of rc keys is not modelled.
  - `ax.legend`, the legend handle resizing and `plt.savefig` are not modelled.
  - `sns.color_palette` is the palette parameter. Its own error for a negative count is not modelled.
- `plt.style.reload_library`, `set_locale` and `set_size_cm` set host or renderer state with no logic to prove.
- `datetime.today()` is replaced by the timestamp parameter.
- `update_file`, `check_changes` and `main` of update_version.py rewrite files and walk a directory.
- Functions the test file calls that this revision does not define are not modelled: `get_theme_priority_lst`, lower-casing in `_get_theme_lst`, `style(locale_setting=...)`, and `get_available_locals`.
- Lists.Dedup: Python does not fix the order of `list(set(...))`. The model keeps first occurrences. `Themes.ResolveNames` shows that success and the resolved themes depend only on the set of names. When several requested names are unknown, the name the `UnknownTheme` error reports follows the model's first-occurrence order; Python may report a different one of them.
- Paths.JoinPath: models POSIX `os.path.join` with two arguments; Windows separators and drive letters are not modelled.
- Colors.ColorList: a `bool` count passes Python's `isinstance(n, int)` check. The model takes ints and non-int reals only.
- Themes.ThemeStems: any name outside `PRIORITY_THEME_LST` would leave a local variable unbound. `style` calls it only after the existence check, so the model requires a priority theme.
- Style.EnterStyle: the order in which `_get_parameters_dct` calls `_get_theme_parameter_lst` is folded into a single dark-mode step before the merge. The observable effect is the same: dark mode is set before any preset lookup can fail.
- Legacy.SciplotStyle: `locale.setlocale` (src/main.py:95) runs before any file is read and raises `locale.Error` when the host lacks the locale, `'sv_SE.ISO8859-1'` by default. Host locales are not modelled, so "succeeds iff all five files exist" assumes the locale is installed.
- Legend.MirrorLoc: for a `loc` naming both sides, the contract says that no `'right'` remains, that `'left'` occurs and that the result is shorter, but not which characters it holds. No matplotlib location keyword names both sides.
- Legend.LegendPlacement: the same gap as `Legend.MirrorLoc` for a `loc` naming both sides.

=== FILE: colors.dfy ===
/** `get_color_lst` in sciplot/main.py: picking the line colours for a plot.
    The seaborn palette is an argument: `palette` stands for what
    `sns.color_palette(seaborn_color_map, color_no).as_hex()` returns. */
module Colors {
  import opened Results
  import opened Lists

  const Black: string := "#000000"
  const White: string := "#FFFFFF"

  /** The `color_no` argument: a Python int, or a number of another type
      such as the float `2.5`. */
  datatype Count = Int(n: int) | NonInt(x: real)

  /** `SciplotException("Invalid number of colors: ...")`. */
  datatype ColorError = InvalidColorCount(count: Count)

  /** `get_color_lst`, with `darkMode` the module's `dark_mode` flag. The
      count is rejected when it is zero or not an int; one colour is black,
      or white in dark mode; more than four colourful ones are the palette;
      dark mode without `colorful` ends in white instead of a palette
      colour; every other case starts with black. */
  function ColorList(count: Count, palette: seq<string>, colorful: bool, darkMode: bool): (r: Result<seq<string>, ColorError>)
    requires count.Int? && count.n >= 0 ==> |palette| == count.n
    ensures r.Err? <==> count.NonInt? || count.n == 0
    ensures r.Err? ==> r.error == InvalidColorCount(count)
    ensures r.Ok? && count.n >= 1 ==> |r.value| == count.n
    ensures r.Ok? ==> forall c :: c in r.value ==> c in palette || c == Black || c == White
    ensures r.Ok? && !darkMode ==> forall c :: c in r.value ==> c in palette || c == Black
    ensures count == Int(1) ==> r == Ok([if darkMode then White else Black])
    ensures r.Ok? && count.n > 4 && colorful ==> r.value == palette
    ensures r.Ok? && count.n != 1 && !(count.n > 4 && colorful) && darkMode && !colorful ==>
              r.value == DropLast(palette) + [White]
    ensures r.Ok? && count.n != 1 && !(count.n > 4 && colorful) && !(darkMode && !colorful) ==>
              r.value == [Black] + DropLast(palette)
  {
    if count.NonInt? || count.n == 0 then Err(InvalidColorCount(count))
    else if count.n > 4 && colorful then Ok(palette)
    else if count.n == 1 && !darkMode then Ok([Black])
    else if count.n == 1 && darkMode then Ok([White])
    else if !colorful && darkMode then
      assert forall c :: c in DropLast(palette) ==> c in palette;
      Ok(DropLast(palette) + [White])
    else
      assert forall c :: c in DropLast(palette) ==> c in palette;
      Ok([Black] + DropLast(palette))
  }

  /** With a palette of distinct colours that are neither pure black nor
      pure white, every colour list holds distinct colours. */
  lemma ColorsDistinct(count: Count, palette: seq<string>, colorful: bool, darkMode: bool)
    requires count.Int? && count.n >= 0 ==> |palette| == count.n
    requires NoDup(palette) && Black !in palette && White !in palette
    ensures ColorList(count, palette, colorful, darkMode).Ok? ==> NoDup(ColorList(count, palette, colorful, darkMode).value)
  {
    var r := ColorList(count, palette, colorful, darkMode);
    if r.Ok? && count.n != 1 && !(count.n > 4 && colorful) {
      var init := DropLast(palette);
      assert forall c :: c in init ==> c in palette;
      assert NoDup(init);
      if darkMode && !colorful {
        assert r.value == init + [White];
        forall i, j | 0 <= i < j < |r.value|
          ensures r.value[i] != r.value[j]
        {
          if j == |init| {
            assert r.value[i] in init;
          }
        }
      } else {
        assert r.value == [Black] + init;
        forall i, j | 0 <= i < j < |r.value|
          ensures r.value[i] != r.value[j]
        {
          if i == 0 {
            assert r.value[j] in init;
          }
        }
      }
    }
  }
}

=== FILE: legacy.dfy ===
/** src/main.py, the older revision of the library: a fixed list of
    parameter files instead of themes, and simpler colour and legend rules.
    The YAML files are a parameter `files`, keyed by file name; a missing
    key is a `FileNotFoundError`. */
module Legacy {
  import opened Results
  import opened Lists
  import opened Params
  import opened Strings
  import Colors
  import opened Legend

  /** `NeatSciplotsException` with its message. */
  datatype LegacyError = NeatSciplotsException(message: string)

  /** The files `get_parameters_lst` reads, in order: five distinct YAML
      files with LaTeX, the first four without. */
  function RequiredFiles(fontStyle: string, useLatex: bool): (r: seq<string>)
    ensures |r| == (if useLatex then 5 else 4)
    ensures NoDup(r)
    ensures forall i :: 0 <= i < |r| ==> EndsWith(r[i], ".yml")
  {
    var r := ["basic.yml", "colors.yml", "typesetting.yml", "fonts_" + fontStyle + ".yml"]
             + (if useLatex then ["latex_" + fontStyle + ".yml"] else []);
    assert forall i :: 0 <= i < |r| ==> |r[i]| > 0 && r[i][0] == "bctfl"[i];
    r
  }

  /** The message raised for each missing file. A missing `colors.yml` is
      reported as missing typesetting parameters (line 48), and a missing
      LaTeX file as a missing font style. */
  function MissingMessages(fontStyle: string, useLatex: bool): (r: seq<string>)
    ensures |r| == |RequiredFiles(fontStyle, useLatex)|
    ensures r[1] == r[2]
    ensures useLatex ==> r[4] == r[3]
    ensures forall i :: 0 <= i < |r| ==> r[i] != ""
  {
    ["Could not import basic parameters",
     "Could not import typesetting parameters",
     "Could not import typesetting parameters",
     "No such font style: '" + fontStyle + "'"]
    + (if useLatex then ["No such font style: '" + fontStyle + "'"] else [])
  }

  /** `get_parameters_lst`: the maps of basic, colours, typesetting and the
      font style, plus the LaTeX map when asked for, in that order; the
      first missing file raises with its own message. */
  function ParameterFiles(fontStyle: string, useLatex: bool, files: map<string, ParamMap>): (r: Result<seq<ParamMap>, LegacyError>)
    ensures r.Ok? <==> forall f :: f in RequiredFiles(fontStyle, useLatex) ==> f in files
    ensures r.Ok? ==> |r.value| == (if useLatex then 5 else 4)
    ensures r.Ok? ==> forall i :: 0 <= i < |r.value| ==> r.value[i] == files[RequiredFiles(fontStyle, useLatex)[i]]
    ensures r.Err? ==> exists i :: 0 <= i < |RequiredFiles(fontStyle, useLatex)|
                        && RequiredFiles(fontStyle, useLatex)[i] !in files
                        && (forall j :: 0 <= j < i ==> RequiredFiles(fontStyle, useLatex)[j] in files)
                        && r.error.message == MissingMessages(fontStyle, useLatex)[i]
  {
    var req := RequiredFiles(fontStyle, useLatex);
    var msg := MissingMessages(fontStyle, useLatex);
    assert req[0] == "basic.yml" && req[1] == "colors.yml" && req[2] == "typesetting.yml";
    assert req[3] == "fonts_" + fontStyle + ".yml";
    if req[0] !in files then Err(NeatSciplotsException(msg[0]))
    else if req[1] !in files then Err(NeatSciplotsException(msg[1]))
    else if req[2] !in files then Err(NeatSciplotsException(msg[2]))
    else if req[3] !in files then Err(NeatSciplotsException(msg[3]))
    else if !useLatex then Ok([files[req[0]], files[req[1]], files[req[2]], files[req[3]]])
    else if req[4] !in files then Err(NeatSciplotsException(msg[4]))
    else Ok([files[req[0]], files[req[1]], files[req[2]], files[req[3]], files[req[4]]])
  }

  /** A missing `colors.yml` is reported as missing typesetting parameters. */
  lemma MissingColorsReportedAsTypesetting(fontStyle: string, useLatex: bool, files: map<string, ParamMap>)
    requires "basic.yml" in files && "colors.yml" !in files
    ensures ParameterFiles(fontStyle, useLatex, files) == Err(NeatSciplotsException("Could not import typesetting parameters"))
  {
  }

  /** `sciplot_style` up to its `yield`: the renderer's rc table `rc` is
      updated with every file of the font style, the LaTeX file included
      whatever `useLatex` says (line 104). The `theme` argument is never
      used: line 97 compares the builtin `type`, not `theme`, with
      `'dark'`. Nothing is restored when the block ends. */
  function SciplotStyle(rc: ParamMap, useLatex: bool, theme: string, fontStyle: string, files: map<string, ParamMap>): (r: Result<ParamMap, LegacyError>)
    ensures r.Ok? <==> forall f :: f in RequiredFiles(fontStyle, true) ==> f in files
    ensures r.Ok? ==> rc.Keys <= r.value.Keys
    ensures r.Ok? ==> forall k :: Lookup(r.value, k) == LastWriter(rc, ParameterFiles(fontStyle, true, files).value, k)
    ensures r.Err? ==> r.error == ParameterFiles(fontStyle, true, files).error
  {
    var maps :- ParameterFiles(fontStyle, true, files);
    assert forall k :: Lookup(UpdateAll(rc, maps), k) == LastWriter(rc, maps, k) by {
      forall k
        ensures Lookup(UpdateAll(rc, maps), k) == LastWriter(rc, maps, k)
      {
        UpdateAllLastWriter(rc, maps, k);
      }
    }
    Ok(UpdateAll(rc, maps))
  }

  /** `use_latex` and `theme` change nothing. */
  lemma SciplotStyleIgnoresLatexAndTheme(rc: ParamMap, fontStyle: string, files: map<string, ParamMap>,
                                         useLatex: bool, theme: string)
    ensures SciplotStyle(rc, useLatex, theme, fontStyle, files) == SciplotStyle(rc, true, "light", fontStyle, files)
  {
  }

  /** Later files win: a key takes its value from the last of the five files
      that defines it, so typesetting beats colours beats basic, the font
      file beats all three and the LaTeX file beats everything; a key no
      file defines keeps the renderer's value. */
  lemma SciplotStyleLaterFilesWin(rc: ParamMap, fontStyle: string, files: map<string, ParamMap>, k: string)
    requires forall f :: f in RequiredFiles(fontStyle, true) ==> f in files
    ensures var r := SciplotStyle(rc, true, "light", fontStyle, files).value;
            var latex := files["latex_" + fontStyle + ".yml"];
            var fonts := files["fonts_" + fontStyle + ".yml"];
            && (k in latex ==> k in r && r[k] == latex[k])
            && (k !in latex && k in fonts ==> k in r && r[k] == fonts[k])
            && ((forall f :: f in RequiredFiles(fontStyle, true) ==> k !in files[f]) ==> (k in r <==> k in rc) && (k in rc ==> r[k] == rc[k]))
  {
    var req := RequiredFiles(fontStyle, true);
    assert req[3] == "fonts_" + fontStyle + ".yml" && req[4] == "latex_" + fontStyle + ".yml";
    var maps := ParameterFiles(fontStyle, true, files).value;
    UpdateAllLastWriter(rc, maps, k);
    assert maps[..4][..3] == maps[..3];
    assert maps[..4][..3][..2] == maps[..2];
    assert maps[..4][..3][..2][..1] == maps[..1];
    assert maps[..1][..0] == [];
    assert maps[..|maps| - 1] == maps[..4];
    if forall f :: f in req ==> k !in files[f] {
      assert forall i :: 0 <= i < |maps| ==> req[i] in req;
      LastWriterUntouched(rc, maps, k);
    }
  }

  /** The general form of the precedence: whichever of the five files is the
      last to define a key gives it its value, so typesetting beats colours
      and colours beat basic as surely as LaTeX beats fonts. */
  lemma SciplotStyleLastFileWins(rc: ParamMap, fontStyle: string, files: map<string, ParamMap>, k: string, i: int)
    requires forall f :: f in RequiredFiles(fontStyle, true) ==> f in files
    requires 0 <= i < 5 && k in files[RequiredFiles(fontStyle, true)[i]]
    requires forall j :: i < j < 5 ==> k !in files[RequiredFiles(fontStyle, true)[j]]
    ensures var r := SciplotStyle(rc, true, "light", fontStyle, files).value;
            k in r && r[k] == files[RequiredFiles(fontStyle, true)[i]][k]
  {
    var req := RequiredFiles(fontStyle, true);
    var maps := ParameterFiles(fontStyle, true, files).value;
    LastWriterIsLast(rc, maps, k, i);
    UpdateAllLastWriter(rc, maps, k);
  }

  /** `get_color_lst` in src/main.py: no validation; more than four colours
      without black are the palette; one colour is black written `000000`,
      without `#`; otherwise black precedes all but the last palette colour. */
  function ColorList(count: int, palette: seq<string>, includeBlack: bool): (r: seq<string>)
    requires count >= 0 ==> |palette| == count
    ensures |r| >= 1
    ensures count >= 1 ==> |r| == count
    ensures count == 0 ==> r == ["000000"]
    ensures forall c :: c in r ==> c in palette || c == "000000"
    ensures count > 4 && !includeBlack ==> r == palette
    ensures !(count > 4 && !includeBlack) ==> r[0] == "000000"
    ensures count != 1 && !(count > 4 && !includeBlack) ==> r == ["000000"] + DropLast(palette)
  {
    if count > 4 && !includeBlack then palette
    else if count == 1 then ["000000"]
    else
      assert forall c :: c in DropLast(palette) ==> c in palette;
      ["000000"] + DropLast(palette)
  }

  /** Outside dark mode the two revisions pick the same colours, with
      `colorful` playing the part of `not include_black`; only the spelling
      of black differs. */
  lemma ColorRevisionsAgree(count: int, palette: seq<string>, includeBlack: bool)
    requires count >= 1 && |palette| == count
    ensures var s := Colors.ColorList(Colors.Int(count), palette, !includeBlack, false);
            var l := ColorList(count, palette, includeBlack);
            && s.Ok? && |s.value| == |l|
            && forall i :: 0 <= i < |l| ==> s.value[i] == l[i] || (l[i] == "000000" && s.value[i] == Colors.Black)
  {
  }

  /** `set_legend` in src/main.py: the same anchors, but `loc` is passed on
      unchanged and the vertical anchor is read from it. */
  function LegendPlacement(loc: string, outsidePlot: bool): (p: Placement)
    ensures p.loc == loc
    ensures !outsidePlot <==> p.anchor.None?
    ensures outsidePlot ==>
              (p.anchor.value.x == 1.04 <==> Contains(loc, "right"))
              && (p.anchor.value.x == 0.94 <==> !Contains(loc, "right") && Contains(loc, "left"))
              && (p.anchor.value.x == 0.5 <==> !Contains(loc, "right") && !Contains(loc, "left"))
    ensures outsidePlot ==>
              (p.anchor.value.y == 1.0 <==> Contains(loc, "upper"))
              && (p.anchor.value.y == 0.0 <==> !Contains(loc, "upper") && Contains(loc, "lower"))
              && (p.anchor.value.y == 0.5 <==> !Contains(loc, "upper") && !Contains(loc, "lower"))
  {
    if outsidePlot then Placement(loc, Some(Anchor(HorizontalAnchor(loc), VerticalAnchor(loc))))
    else Placement(loc, None)
  }

  /** The two revisions always agree on the horizontal anchor, and agree
      completely on a keyword that names neither side. */
  lemma LegendRevisionsAgree(loc: string)
    ensures LegendPlacement(loc, true).anchor.value.x == Legend.LegendPlacement(loc, true).anchor.value.x
    ensures !Contains(loc, "right") && !Contains(loc, "left") ==>
              LegendPlacement(loc, true) == Legend.LegendPlacement(loc, true)
  {
  }
}

=== FILE: legend.dfy ===
/** The anchor computation of `set_legend` in sciplot/main.py: with
    `outside_plot`, a compass keyword such as `'lower right'` becomes a
    `bbox_to_anchor` point just beside the axes, and the keyword's
    horizontal word is mirrored so the box sits on the far side of that
    point. The `ax.legend` call and the handle resizing are not modelled. */
module Legend {
  import opened Results
  import opened Strings

  /** `bbox_to_anchor`: a point in axes coordinates. */
  datatype Anchor = Anchor(x: real, y: real)

  /** The `loc` and `bbox_to_anchor` handed to `ax.legend`; no anchor is
      passed when the legend stays inside the plot. */
  datatype Placement = Placement(loc: string, anchor: Option<Anchor>)

  /** Lines 238-245: right of the axes, left of them, or centred. */
  function HorizontalAnchor(loc: string): (x: real)
    ensures x == 1.04 <==> Contains(loc, "right")
    ensures x == 0.94 <==> !Contains(loc, "right") && Contains(loc, "left")
    ensures x == 0.5 <==> !Contains(loc, "right") && !Contains(loc, "left")
  {
    if Contains(loc, "right") then 1.04 else if Contains(loc, "left") then 0.94 else 0.5
  }

  /** Lines 247-252: top edge, bottom edge, or middle. */
  function VerticalAnchor(loc: string): (y: real)
    ensures y == 1.0 <==> Contains(loc, "upper")
    ensures y == 0.0 <==> !Contains(loc, "upper") && Contains(loc, "lower")
    ensures y == 0.5 <==> !Contains(loc, "upper") && !Contains(loc, "lower")
  {
    if Contains(loc, "upper") then 1.0 else if Contains(loc, "lower") then 0.0 else 0.5
  }

  /** Lines 238-243: `'right'` becomes `'left'`; failing that, `'left'`
      becomes `'right'`. The swapped word appears in the result, which is
      one letter shorter or longer per swap. When the keyword holds only one
      of the two words, mirroring back restores it. */
  function MirrorLoc(loc: string): (r: string)
    ensures Contains(loc, "right") ==> !Contains(r, "right")
    ensures !Contains(loc, "right") && Contains(loc, "left") ==> !Contains(r, "left")
    ensures !Contains(loc, "right") && !Contains(loc, "left") ==> r == loc
    ensures Contains(loc, "right") ==> Contains(r, "left") && |r| < |loc|
    ensures !Contains(loc, "right") && Contains(loc, "left") ==> Contains(r, "right") && |r| > |loc|
    ensures Contains(loc, "right") && !Contains(loc, "left") ==> ReplaceAll(r, "left", "right") == loc
    ensures !Contains(loc, "right") && Contains(loc, "left") ==> ReplaceAll(r, "right", "left") == loc
  {
    if Contains(loc, "right") then
      ReplaceLeavesNoPattern(loc, "right", "left");
      ReplaceRoundTrip(loc, "right", "left");
      ReplaceFound(loc, "right", "left");
      ReplaceAll(loc, "right", "left")
    else if Contains(loc, "left") then
      ReplaceLeavesNoPattern(loc, "left", "right");
      ReplaceRoundTrip(loc, "left", "right");
      ReplaceFound(loc, "left", "right");
      ReplaceAll(loc, "left", "right")
    else loc
  }

  /** `set_legend`'s choice of `loc` and anchor. The horizontal anchor is
      read from the keyword as given; the vertical one from the mirrored
      keyword, which line 247 tests. */
  function LegendPlacement(loc: string, outsidePlot: bool): (p: Placement)
    ensures !outsidePlot ==> p == Placement(loc, None)
    ensures outsidePlot ==> p.anchor.Some?
    ensures outsidePlot && Contains(loc, "right") ==>
              p.anchor.value.x == 1.04 && !Contains(p.loc, "right") && Contains(p.loc, "left")
              && |p.loc| < |loc|
    ensures outsidePlot && !Contains(loc, "right") && Contains(loc, "left") ==>
              p.anchor.value.x == 0.94 && !Contains(p.loc, "left") && Contains(p.loc, "right")
              && |p.loc| > |loc|
    ensures outsidePlot && !Contains(loc, "right") && !Contains(loc, "left") ==>
              p.loc == loc && p.anchor.value.x == 0.5
    ensures outsidePlot ==>
              (p.anchor.value.y == 1.0 <==> Contains(p.loc, "upper"))
              && (p.anchor.value.y == 0.0 <==> !Contains(p.loc, "upper") && Contains(p.loc, "lower"))
              && (p.anchor.value.y == 0.5 <==> !Contains(p.loc, "upper") && !Contains(p.loc, "lower"))
    ensures outsidePlot && Contains(loc, "right") && !Contains(loc, "left") ==>
              ReplaceAll(p.loc, "left", "right") == loc
    ensures outsidePlot && !Contains(loc, "right") && Contains(loc, "left") ==>
              ReplaceAll(p.loc, "right", "left") == loc
  {
    if outsidePlot then
      var mirrored := MirrorLoc(loc);
      Placement(mirrored, Some(Anchor(HorizontalAnchor(loc), VerticalAnchor(mirrored))))
    else Placement(loc, None)
  }

  /** `'lower right'` outside the plot: anchored at (1.04, 0) with the box
      opening to the left. */
  lemma LowerRightOutside()
    ensures LegendPlacement("lower right", true) == Placement("lower left", Some(Anchor(1.04, 0.0)))
  {
    MirrorLowerRight();
    LowerLeftAtBottom();
  }

  /** `'lower left'` names the bottom edge and not the top one. */
  lemma LowerLeftAtBottom()
    ensures VerticalAnchor("lower left") == 0.0
  {
    NoLetter("lower left", "upper", 'u');
    assert "lower" <= "lower left";
  }

  /** Mirroring `'lower right'` gives `'lower left'`. */
  lemma MirrorLowerRight()
    ensures Contains("lower right", "right")
    ensures MirrorLoc("lower right") == "lower left"
  {
    var loc := "lower right";
    assert loc[6..] == "right";
    ContainsSuffix(loc, 6, "right");
    ReplaceLowerRight();
  }

  /** `str.replace` on `'lower right'`. */
  lemma ReplaceLowerRight()
    ensures ReplaceAll("lower right", "right", "left") == "lower left"
  {
    ReplaceWhole("right", "left");
    ReplaceAfterNoMatch("lower ", "right", "right", "left");
    assert "lower " + "right" == "lower right";
    assert "lower " + "left" == "lower left";
  }

  /** `'upper left'` outside the plot: anchored at (0.94, 1) with the box
      opening to the right. */
  lemma UpperLeftOutside()
    ensures LegendPlacement("upper left", true) == Placement("upper right", Some(Anchor(0.94, 1.0)))
  {
    MirrorUpperLeft();
    UpperRightAtTop();
  }

  /** `'upper right'` names the top edge. */
  lemma UpperRightAtTop()
    ensures VerticalAnchor("upper right") == 1.0
  {
    assert "upper" <= "upper right";
  }

  /** Mirroring `'upper left'` gives `'upper right'`. */
  lemma MirrorUpperLeft()
    ensures !Contains("upper left", "right") && Contains("upper left", "left")
    ensures MirrorLoc("upper left") == "upper right"
  {
    var loc := "upper left";
    UpperLeftHasNoRight();
    assert loc[6..] == "left";
    ContainsSuffix(loc, 6, "left");
    ReplaceUpperLeft();
  }

  /** `str.replace` on `'upper left'`. */
  lemma ReplaceUpperLeft()
    ensures ReplaceAll("upper left", "left", "right") == "upper right"
  {
    ReplaceWhole("left", "right");
    ReplaceAfterNoMatch("upper ", "left", "left", "right");
    assert "upper " + "left" == "upper left";
    assert "upper " + "right" == "upper right";
  }

  /** `'right'` does not occur in `'upper left'`. */
  lemma UpperLeftHasNoRight()
    ensures !Contains("upper left", "right")
  {
    assert !Contains("eft", "right");
    NotContainsStep("left", "right");
    NotContainsStep(" left", "right");
    assert "r left"[1..] == " left";
    assert !("right" <= "r left");
    assert !Contains("r left", "right");
    NotContainsStep("er left", "right");
    NotContainsStep("per left", "right");
    NotContainsStep("pper left", "right");
    NotContainsStep("upper left", "right");
  }
}

=== FILE: lists.dfy ===
/** The Python list operations the theme pipeline relies on. */
module Lists {

  /** No element occurs twice. */
  predicate NoDup<T(==)>(s: seq<T>) {
    forall i, j :: 0 <= i < j < |s| ==> s[i] != s[j]
  }

  /** The set of elements, Python's `set(s)`. */
  function Elems<T>(s: seq<T>): set<T> {
    set x | x in s
  }

  /** `lst.remove(x)`: drops the first occurrence of `x`. Python raises
      `ValueError` when `x` is absent; every caller checks `x in lst` first. */
  function RemoveFirst<T(==)>(s: seq<T>, x: T): (r: seq<T>)
    requires x in s
    ensures |r| == |s| - 1
    ensures multiset(r) == multiset(s) - multiset{x}
  {
    if s[0] == x then
      assert s == [s[0]] + s[1..];
      s[1..]
    else
      assert s == [s[0]] + s[1..];
      [s[0]] + RemoveFirst(s[1..], x)
  }

  /** `RemoveFirst` cuts exactly the first occurrence out and keeps the order
      of everything else. */
  lemma {:induction false} RemoveFirstCutsFirst<T>(s: seq<T>, x: T)
    requires x in s
    ensures var i := FirstIndex(s, x); RemoveFirst(s, x) == s[..i] + s[i + 1..]
  {
    RemoveFirstCutsAt(s, x, FirstIndex(s, x));
  }

  /** Removing the first `x` cuts out index `i` when `i` holds the first `x`. */
  lemma {:induction false} RemoveFirstCutsAt<T>(s: seq<T>, x: T, i: nat)
    requires i < |s| && s[i] == x && x !in s[..i]
    ensures RemoveFirst(s, x) == s[..i] + s[i + 1..]
  {
    if i == 0 {
      assert s[..0] + s[1..] == s[1..];
    } else {
      assert s[0] in s[..i];
      var t := s[1..];
      assert t[..i - 1] == s[1..i];
      assert forall y :: y in s[1..i] ==> y in s[..i];
      RemoveFirstCutsAt(t, x, i - 1);
      CutAfterHead(s[0], t, i - 1);
      assert [s[0]] + t == s;
    }
  }

  /** Cutting index `i` out of `t` and putting `a` in front is cutting
      index `i + 1` out of `[a] + t`. */
  lemma CutAfterHead<T>(a: T, t: seq<T>, i: nat)
    requires i < |t|
    ensures [a] + (t[..i] + t[i + 1..]) == ([a] + t)[..i + 1] + ([a] + t)[i + 2..]
  {
    assert ([a] + t)[..i + 1] == [a] + t[..i];
    assert ([a] + t)[i + 2..] == t[i + 1..];
  }

  /** The index of the first occurrence of `x`, as `lst.index(x)` finds it. */
  function FirstIndex<T(==)>(s: seq<T>, x: T): (i: nat)
    requires x in s
    ensures i < |s| && s[i] == x && x !in s[..i]
  {
    if s[0] == x then 0
    else
      var i := FirstIndex(s[1..], x);
      assert s[..i + 1] == [s[0]] + s[1..][..i];
      i + 1
  }

  /** `list(set(s))` with the first-occurrence order chosen for the
      otherwise unspecified iteration order of a Python set. */
  function Dedup<T(==)>(s: seq<T>): (r: seq<T>)
    ensures NoDup(r)
    ensures Elems(r) == Elems(s)
  {
    if |s| == 0 then []
    else
      var init := s[..|s| - 1];
      var d := Dedup(init);
      assert s == init + [s[|s| - 1]];
      assert Elems(s) == Elems(init) + {s[|s| - 1]};
      if s[|s| - 1] in d then d
      else
        assert Elems(d + [s[|s| - 1]]) == Elems(d) + {s[|s| - 1]};
        d + [s[|s| - 1]]
  }

  /** `lst.reverse()`. */
  function Reverse<T>(s: seq<T>): (r: seq<T>)
    ensures |r| == |s|
    ensures forall i :: 0 <= i < |s| ==> r[i] == s[|s| - 1 - i]
    ensures multiset(r) == multiset(s)
  {
    if |s| == 0 then []
    else
      assert s == [s[0]] + s[1..];
      Reverse(s[1..]) + [s[0]]
  }

  /** Python's slice `s[:-1]`, which is empty for an empty list. */
  function DropLast<T>(s: seq<T>): (r: seq<T>)
    ensures |s| > 0 ==> |r| == |s| - 1 && s == r + [s[|s| - 1]]
    ensures |s| == 0 ==> r == []
  {
    if |s| == 0 then [] else s[..|s| - 1]
  }

  /** Reversing keeps the same elements. */
  lemma ReverseMembers<T>(s: seq<T>, x: T)
    ensures x in Reverse(s) <==> x in s
  {
    assert x in Reverse(s) <==> x in multiset(Reverse(s));
  }

  /** Reversing a list with a head puts that head last. */
  lemma ReverseCons<T>(s: seq<T>)
    requires |s| > 0
    ensures Reverse(s) == Reverse(s[1..]) + [s[0]]
  {
  }

  /** Removing the only occurrence of `x` from a duplicate-free list leaves
      exactly the other elements, still without duplicates. */
  lemma {:induction false} RemoveFirstNoDup<T>(s: seq<T>, x: T)
    requires NoDup(s) && x in s
    ensures NoDup(RemoveFirst(s, x))
    ensures Elems(RemoveFirst(s, x)) == Elems(s) - {x}
  {
    assert s == [s[0]] + s[1..];
    assert NoDup(s[1..]);
    if s[0] == x {
      assert x !in s[1..];
    } else {
      var r' := RemoveFirst(s[1..], x);
      RemoveFirstNoDup(s[1..], x);
      assert s[0] !in s[1..];
      assert s[0] !in Elems(s[1..]);
      assert s[0] !in Elems(r');
      assert RemoveFirst(s, x) == [s[0]] + r';
      assert Elems([s[0]] + r') == {s[0]} + Elems(r');
      assert Elems(s) == {s[0]} + Elems(s[1..]);
    }
  }
}

=== FILE: params.dfy ===
/** Renderer parameter maps and the `dict.update` fold both revisions use to
    combine them. */
module Params {
  import opened Results

  /** An opaque parameter value as a preset file would spell it. */
  datatype Value = Text(text: string) | Whole(whole: int) | Decimal(decimal: real) | Flag(flag: bool) | Items(items: seq<Value>)

  /** A key -> value map such as `{'font.family': 'serif'}`. */
  type ParamMap = map<string, Value>

  /** The value a map gives a key, if any. */
  function Lookup(m: ParamMap, k: string): Option<Value> {
    if k in m then Some(m[k]) else None
  }

  /** `for m in maps: acc.update(m)`: each map overwrites the keys it
      defines. No key is lost, every key comes from the start or from one of
      the maps, and the last map's values stand. */
  function UpdateAll(acc: ParamMap, maps: seq<ParamMap>): (r: ParamMap)
    ensures acc.Keys <= r.Keys
    ensures forall i, k :: 0 <= i < |maps| && k in maps[i] ==> k in r
    ensures forall k :: k in r ==> k in acc || exists i :: 0 <= i < |maps| && k in maps[i]
    ensures |maps| > 0 ==> forall k :: k in maps[|maps| - 1] ==> r[k] == maps[|maps| - 1][k]
    decreases |maps|
  {
    if |maps| == 0 then acc
    else
      var init := maps[..|maps| - 1];
      assert forall i :: 0 <= i < |init| ==> init[i] == maps[i];
      UpdateAll(acc, init) + maps[|maps| - 1]
  }

  /** Reference reading of the fold, key by key: the value of `k` is the one
      the LAST map defining `k` gives it, or the starting map's value when no
      map defines it, or none at all. */
  function LastWriter(acc: ParamMap, maps: seq<ParamMap>, k: string): Option<Value>
    decreases |maps|
  {
    if |maps| == 0 then (if k in acc then Some(acc[k]) else None)
    else if k in maps[|maps| - 1] then Some(maps[|maps| - 1][k])
    else LastWriter(acc, maps[..|maps| - 1], k)
  }

  /** The fold agrees with the last-writer reading on every key: a key is
      present exactly when some map (or the start) defines it, and the later
      update wins. */
  lemma {:induction false} UpdateAllLastWriter(acc: ParamMap, maps: seq<ParamMap>, k: string)
    ensures k in UpdateAll(acc, maps) <==> LastWriter(acc, maps, k).Some?
    ensures k in UpdateAll(acc, maps) ==> UpdateAll(acc, maps)[k] == LastWriter(acc, maps, k).value
    decreases |maps|
  {
    if |maps| > 0 {
      UpdateAllLastWriter(acc, maps[..|maps| - 1], k);
    }
  }

  /** Folding over `a + b` applies `a`'s maps first, then `b`'s. */
  lemma {:induction false} UpdateAllAppend(acc: ParamMap, a: seq<ParamMap>, b: seq<ParamMap>)
    ensures UpdateAll(acc, a + b) == UpdateAll(UpdateAll(acc, a), b)
    decreases |b|
  {
    if |b| == 0 {
      assert a + b == a;
    } else {
      assert (a + b)[..|a + b| - 1] == a + b[..|b| - 1];
      UpdateAllAppend(acc, a, b[..|b| - 1]);
    }
  }

  /** Last-writer over `a + b`: a key any of `b`'s maps defines is decided
      by `b`, every other key by `a` and the start. */
  lemma {:induction false} LastWriterAppend(acc: ParamMap, a: seq<ParamMap>, b: seq<ParamMap>, k: string)
    ensures LastWriter(acc, a + b, k)
         == if LastWriter(map[], b, k).Some? then LastWriter(map[], b, k) else LastWriter(acc, a, k)
    decreases |b|
  {
    if |b| == 0 {
      assert a + b == a;
    } else {
      assert (a + b)[..|a + b| - 1] == a + b[..|b| - 1];
      LastWriterAppend(acc, a, b[..|b| - 1], k);
    }
  }

  /** A key none of the maps defines keeps the starting map's entry. */
  lemma {:induction false} LastWriterUntouched(acc: ParamMap, maps: seq<ParamMap>, k: string)
    requires forall i :: 0 <= i < |maps| ==> k !in maps[i]
    ensures LastWriter(acc, maps, k) == if k in acc then Some(acc[k]) else None
    decreases |maps|
  {
    if |maps| > 0 {
      LastWriterUntouched(acc, maps[..|maps| - 1], k);
    }
  }

  /** A key the start defines keeps being defined. */
  lemma {:induction false} LastWriterKeepsStart(acc: ParamMap, maps: seq<ParamMap>, k: string)
    requires k in acc
    ensures LastWriter(acc, maps, k).Some?
    decreases |maps|
  {
    if |maps| > 0 {
      LastWriterKeepsStart(acc, maps[..|maps| - 1], k);
    }
  }

  /** The map at index `i` decides `k` when no later map defines it. */
  lemma {:induction false} LastWriterIsLast(acc: ParamMap, maps: seq<ParamMap>, k: string, i: int)
    requires 0 <= i < |maps| && k in maps[i]
    requires forall j :: i < j < |maps| ==> k !in maps[j]
    ensures LastWriter(acc, maps, k) == Some(maps[i][k])
    decreases |maps|
  {
    if i < |maps| - 1 {
      var init := maps[..|maps| - 1];
      assert forall j :: i < j < |init| ==> init[j] == maps[j];
      LastWriterIsLast(acc, init, k, i);
    }
  }
}

=== FILE: paths.dfy ===
/** The path `save_time_stamped_figure` saves to (sciplot/main.py lines
    300-312; src/main.py lines 185-197 hold the same code). The timestamp
    from `datetime.today()` is an argument, and the `plt.savefig` call is
    not modelled. */
module Paths {
  import opened Strings

  /** `re.sub(r'\.png$', '', name)` for `ext == ".png"` (and likewise for
      `.pdf`): the extension goes when it ends the name. Python's `$` also
      matches just before a final newline, so `"a.png\n"` becomes `"a\n"`. */
  function StripExtension(name: string, ext: string): (r: string)
    ensures EndsWith(name, ext) ==> name == r + ext
    ensures !EndsWith(name, ext) && EndsWith(name, ext + "\n") ==>
              |r| > 0 && r[|r| - 1] == '\n' && name == r[..|r| - 1] + ext + "\n"
    ensures !EndsWith(name, ext) && !EndsWith(name, ext + "\n") ==> r == name
  {
    if EndsWith(name, ext) then
      assert name == name[..|name| - |ext|] + name[|name| - |ext|..];
      name[..|name| - |ext|]
    else if EndsWith(name, ext + "\n") then
      var r := name[..|name| - |ext| - 1] + "\n";
      assert name == name[..|name| - |ext| - 1] + name[|name| - |ext| - 1..];
      assert r[..|r| - 1] == name[..|name| - |ext| - 1];
      r
    else name
  }

  /** Lines 301-304: a name mentioning `png` loses a trailing `.png`;
      otherwise a name mentioning `pdf` loses a trailing `.pdf`. A `.pdf`
      ending survives when `png` occurs elsewhere in the name. */
  function PlotStem(name: string): (r: string)
    ensures EndsWith(name, ".png") ==> name == r + ".png"
    ensures Contains(name, "png") && !EndsWith(name, ".png") && EndsWith(name, ".png\n") ==>
              |r| > 0 && r[|r| - 1] == '\n' && name == r[..|r| - 1] + ".png\n"
    ensures Contains(name, "png") && !EndsWith(name, ".png") && !EndsWith(name, ".png\n") ==> r == name
    ensures !Contains(name, "png") && EndsWith(name, ".pdf") ==> name == r + ".pdf"
    ensures !Contains(name, "png") && Contains(name, "pdf") && !EndsWith(name, ".pdf") && EndsWith(name, ".pdf\n") ==>
              |r| > 0 && r[|r| - 1] == '\n' && name == r[..|r| - 1] + ".pdf\n"
    ensures !Contains(name, "png") && Contains(name, "pdf") && !EndsWith(name, ".pdf") && !EndsWith(name, ".pdf\n") ==>
              r == name
    ensures !Contains(name, "png") && !Contains(name, "pdf") ==> r == name
  {
    EndingContains(name);
    if Contains(name, "png") then StripExtension(name, ".png")
    else if Contains(name, "pdf") then StripExtension(name, ".pdf")
    else name
  }

  /** A name ending in `.png` mentions `png`; one ending in `.pdf`
      mentions `pdf`. */
  lemma EndingContains(name: string)
    ensures EndsWith(name, ".png") ==> Contains(name, "png")
    ensures EndsWith(name, ".pdf") ==> Contains(name, "pdf")
  {
    if |name| >= 3 {
      var tail := name[|name| - 3..];
      if tail == "png" || tail == "pdf" {
        assert tail <= tail;
        ContainsSuffix(name, |name| - 3, tail);
      }
    }
  }

  /** `os.path.join(directory, leaf)` on POSIX for a non-empty directory: an
      absolute leaf replaces the directory; otherwise one `/` separates them. */
  function JoinPath(directory: string, leaf: string): (r: string)
    requires |directory| > 0
    ensures "/" <= leaf ==> r == leaf
    ensures !("/" <= leaf) ==> EndsWith(r, leaf) && directory <= r
    ensures !("/" <= leaf) ==> |r| == |directory| + |leaf| + (if EndsWith(directory, "/") then 0 else 1)
    ensures !("/" <= leaf) && !EndsWith(directory, "/") ==> r[|directory|] == '/'
  {
    if "/" <= leaf then leaf
    else if EndsWith(directory, "/") then
      assert (directory + leaf)[|directory + leaf| - |leaf|..] == leaf;
      directory + leaf
    else
      assert (directory + "/" + leaf)[|directory + "/" + leaf| - |leaf|..] == leaf;
      directory + "/" + leaf
  }

  /** The saved file name: stem, `_`, timestamp, `.`, file type. */
  function StampedLeaf(name: string, timestamp: string, fileType: string): string {
    PlotStem(name) + "_" + timestamp + "." + fileType
  }

  /** Lines 306-312: the leaf alone when no directory is given, else the
      leaf joined to the directory, which an absolute name overrides. */
  function TimeStampedPath(name: string, directory: string, timestamp: string, fileType: string): (r: string)
    ensures EndsWith(r, "_" + timestamp + "." + fileType)
    ensures directory == "" ==> r == StampedLeaf(name, timestamp, fileType)
    ensures directory != "" && "/" <= name ==> r == StampedLeaf(name, timestamp, fileType)
    ensures directory != "" && !("/" <= name) ==>
              directory <= r && EndsWith(r, StampedLeaf(name, timestamp, fileType))
              && |r| == |directory| + |StampedLeaf(name, timestamp, fileType)| + (if EndsWith(directory, "/") then 0 else 1)
    ensures directory != "" && !("/" <= name) && !EndsWith(directory, "/") ==> r[|directory|] == '/'
  {
    var leaf := StampedLeaf(name, timestamp, fileType);
    var tail := "_" + timestamp + "." + fileType;
    assert leaf == PlotStem(name) + tail;
    assert leaf[|leaf| - |tail|..] == tail;
    if directory == "" then leaf
    else
      AbsoluteStem(name);
      assert "/" <= name ==> "/" <= leaf;
      assert !("/" <= name) ==> !("/" <= leaf) by {
        var stem := PlotStem(name);
        if |stem| > 0 {
          assert leaf[0] == stem[0];
          StemHead(name);
        } else {
          assert leaf[0] == '_';
        }
      }
      var r := JoinPath(directory, leaf);
      assert r[|r| - |tail|..] == leaf[|leaf| - |tail|..];
      r
  }

  /** The stem begins like the name, or with the newline a `$` match kept. */
  lemma StemHead(name: string)
    requires |PlotStem(name)| > 0
    ensures PlotStem(name)[0] == name[0] || PlotStem(name)[0] == '\n'
  {
    var stem := PlotStem(name);
    if stem != name {
      var ext := if Contains(name, "png") then ".png" else ".pdf";
      assert stem == StripExtension(name, ext);
      if EndsWith(name, ext) {
        assert name == stem + ext;
      } else if |stem| > 1 {
        assert name == stem[..|stem| - 1] + ext + "\n";
        assert name[0] == stem[0];
      }
    }
  }

  /** An absolute name keeps its leading `/` in the stem. */
  lemma AbsoluteStem(name: string)
    ensures "/" <= name ==> |PlotStem(name)| > 0 && PlotStem(name)[0] == '/'
  {
    if "/" <= name {
      var stem := PlotStem(name);
      if stem != name {
        var ext := if Contains(name, "png") then ".png" else ".pdf";
        assert stem == StripExtension(name, ext);
        if EndsWith(name, ext) {
          assert name == stem + ext;
          assert ext[0] == '.' && name[0] == '/';
          assert |stem| > 0;
        } else {
          assert name == stem[..|stem| - 1] + ext + "\n";
          assert ext[0] == '.' && name[0] == '/';
          assert |stem| > 1;
          assert name[0] == stem[0];
        }
      }
    }
  }

  /** The stem is the name with at most one trailing extension removed, so
      the name can be rebuilt from it. */
  lemma StemRebuildsName(name: string)
    ensures var stem := PlotStem(name);
            || name == stem
            || name == stem + ".png"
            || name == stem + ".pdf"
            || (|stem| > 0 && (name == stem[..|stem| - 1] + ".png\n" || name == stem[..|stem| - 1] + ".pdf\n"))
  {
  }

  /** A name that already ends in `.png`, saved as png: the extension is not
      doubled, e.g. `plot.png` in `/tmp` becomes `/tmp/plot_<timestamp>.png`. */
  lemma PngNotDoubled(name: string, directory: string, timestamp: string)
    requires EndsWith(name, ".png")
    ensures PlotStem(name) == name[..|name| - 4]
    ensures directory == "" ==>
              TimeStampedPath(name, directory, timestamp, "png") == name[..|name| - 4] + "_" + timestamp + ".png"
  {
    assert name[|name| - 4..] == ".png";
    assert name[|name| - 4 + 1..] == "png";
    ContainsSuffix(name, |name| - 3, "png");
  }

  /** Example from the `/tmp` directory. */
  lemma TmpExample(timestamp: string)
    ensures TimeStampedPath("plot.png", "/tmp", timestamp, "png") == "/tmp/plot_" + timestamp + ".png"
  {
    PngNotDoubled("plot.png", "", timestamp);
    assert "plot.png"[..4] == "plot";
    assert !EndsWith("/tmp", "/");
    assert !("/" <= "plot_" + timestamp + ".png");
  }

  /** A name that mentions `png` anywhere never has `.pdf` stripped:
      `png_plot.pdf` keeps its extension and is saved as
      `png_plot.pdf_<timestamp>.png`. */
  lemma PdfKeptWhenNameMentionsPng(timestamp: string)
    ensures TimeStampedPath("png_plot.pdf", "", timestamp, "png") == "png_plot.pdf_" + timestamp + ".png"
  {
    PngPlotPdfStem();
    assert "png_plot.pdf" + "_" + timestamp + "." + "png" == "png_plot.pdf_" + timestamp + ".png";
  }

  /** `png_plot.pdf` mentions `png` but does not end in `.png`. */
  lemma PngPlotPdfStem()
    ensures PlotStem("png_plot.pdf") == "png_plot.pdf"
  {
    var name := "png_plot.pdf";
    assert "png" <= name;
    assert name[|name| - 1] == 'f';
    assert !EndsWith(name, ".png");
    assert !EndsWith(name, ".png\n");
  }
}

=== FILE: results.dfy ===
/** Optional values and success/failure results. The Python sources signal
    failure by raising; the model returns `Err` with the exception's kind. */
module Results {

  datatype Option<+T> = None | Some(value: T)

  datatype Result<+T, +E> = Ok(value: T) | Err(error: E) {

    predicate IsFailure() {
      Err?
    }

    function PropagateFailure<U>(): Result<U, E>
      requires Err?
    {
      Err(error)
    }

    function Extract(): T
      requires Ok?
    {
      value
    }
  }
}

=== FILE: strings.dfy ===
/** The Python string operations the helpers use: `p in s`, a trailing
    match, and `str.replace`. Strings are `seq<char>`; `a <= b` is the
    prefix relation on sequences. */
module Strings {

  /** Python's `p in s`: `p` is a prefix of `s` or of one of its tails. */
  predicate Contains(s: string, p: string)
    decreases |s|
  {
    p <= s || (|s| > 0 && Contains(s[1..], p))
  }

  /** `p` occurs in `s` starting at index `i`. */
  predicate OccursAt(s: string, p: string, i: int) {
    0 <= i <= |s| - |p| && s[i..i + |p|] == p
  }

  /** `Contains` agrees with the direct definition of a substring: some slice
      of `s` as long as `p` equals `p`. */
  lemma {:induction false} ContainsIffOccurs(s: string, p: string)
    ensures Contains(s, p) <==> exists i :: OccursAt(s, p, i)
    decreases |s|
  {
    if p <= s {
      assert OccursAt(s, p, 0);
    } else if |s| == 0 {
      assert forall i :: !OccursAt(s, p, i);
    } else {
      ContainsIffOccurs(s[1..], p);
      forall i | OccursAt(s[1..], p, i)
        ensures OccursAt(s, p, i + 1)
      {
        assert s[i + 1..i + 1 + |p|] == s[1..][i..i + |p|];
      }
      forall i | OccursAt(s, p, i)
        ensures OccursAt(s[1..], p, i - 1)
      {
        assert i > 0;
        assert s[1..][i - 1..i - 1 + |p|] == s[i..i + |p|];
      }
    }
  }

  /** `s` ends with `suffix`. */
  predicate EndsWith(s: string, suffix: string) {
    |suffix| <= |s| && s[|s| - |suffix|..] == suffix
  }

  /** Python's `s.replace(pat, rep)`: the occurrences of `pat` found scanning
      left to right, without overlap, each become `rep`. */
  function ReplaceAll(s: string, pat: string, rep: string): string
    requires |pat| > 0
    decreases |s|
  {
    if |s| == 0 then ""
    else if pat <= s then rep + ReplaceAll(s[|pat|..], pat, rep)
    else [s[0]] + ReplaceAll(s[1..], pat, rep)
  }

  /** A string without `pat` comes out of `replace` unchanged. */
  lemma {:induction false} ReplaceAbsent(s: string, pat: string, rep: string)
    requires |pat| > 0
    ensures !Contains(s, pat) ==> ReplaceAll(s, pat, rep) == s
    decreases |s|
  {
    if |s| > 0 && !Contains(s, pat) {
      ReplaceAbsent(s[1..], pat, rep);
      assert s == [s[0]] + s[1..];
    }
  }

  /** A shorter replacement never lengthens the string, and a longer one
      never shortens it. */
  lemma {:induction false} ReplaceLength(s: string, pat: string, rep: string)
    requires |pat| > 0
    ensures |rep| <= |pat| ==> |ReplaceAll(s, pat, rep)| <= |s|
    ensures |rep| >= |pat| ==> |ReplaceAll(s, pat, rep)| >= |s|
    decreases |s|
  {
    if |s| > 0 {
      if pat <= s {
        ReplaceLength(s[|pat|..], pat, rep);
      } else {
        ReplaceLength(s[1..], pat, rep);
      }
    }
  }

  /** When `pat` occurs, `replace` puts `rep` into the result, and a
      strictly shorter (longer) replacement strictly shortens (lengthens)
      the string. */
  lemma {:induction false} ReplaceFound(s: string, pat: string, rep: string)
    requires |pat| > 0
    ensures Contains(s, pat) ==> Contains(ReplaceAll(s, pat, rep), rep)
    ensures Contains(s, pat) && |rep| < |pat| ==> |ReplaceAll(s, pat, rep)| < |s|
    ensures Contains(s, pat) && |rep| > |pat| ==> |ReplaceAll(s, pat, rep)| > |s|
    decreases |s|
  {
    if |s| > 0 && Contains(s, pat) {
      if pat <= s {
        var y := ReplaceAll(s[|pat|..], pat, rep);
        ReplaceLength(s[|pat|..], pat, rep);
        assert rep <= rep + y;
      } else {
        var y := ReplaceAll(s[1..], pat, rep);
        ReplaceFound(s[1..], pat, rep);
        assert ReplaceAll(s, pat, rep) == [s[0]] + y;
        assert ([s[0]] + y)[1..] == y;
      }
    }
  }

  /** An occurrence of `p` in `a + b` lies wholly in `b` when `a` holds no
      copy of the first character of `p`. */
  lemma {:induction false} ContainsPastPrefix(a: string, b: string, p: string)
    requires |p| > 0 && p[0] !in a
    ensures Contains(a + b, p) ==> Contains(b, p)
    decreases |a|
  {
    if |a| > 0 {
      assert a[0] in a;
      assert !(p <= a + b);
      assert (a + b)[1..] == a[1..] + b;
      assert p[0] !in a[1..];
      ContainsPastPrefix(a[1..], b, p);
    } else {
      assert a + b == b;
    }
  }

  /** A prefix of a replaced string that never holds the first character of
      the replacement was already a prefix of the original string. */
  lemma {:induction false} PrefixBeforeReplacement(t: string, w: string, pat: string, rep: string)
    requires |pat| > 0 && |rep| > 0 && rep[0] !in w
    ensures w <= ReplaceAll(t, pat, rep) ==> w <= t
    decreases |t|
  {
    if |w| > 0 && |t| > 0 && !(pat <= t) {
      var rest := ReplaceAll(t[1..], pat, rep);
      assert ReplaceAll(t, pat, rep) == [t[0]] + rest;
      assert rep[0] !in w[1..];
      PrefixBeforeReplacement(t[1..], w[1..], pat, rep);
      assert w <= [t[0]] + rest ==> w[1..] <= rest;
      assert w[1..] <= t[1..] && w[0] == t[0] ==> w <= t;
    } else if |w| > 0 && |t| > 0 {
      assert w[0] in w;
      assert ReplaceAll(t, pat, rep)[0] == rep[0];
    }
  }

  /** After `replace`, no occurrence of `pat` is left, provided the
      replacement cannot form a new one: `rep` holds no first character of
      `pat`, and `pat` holds no first character of `rep` past its own head.
      This covers both `'right' -> 'left'` and `'left' -> 'right'`. */
  lemma {:induction false} ReplaceLeavesNoPattern(s: string, pat: string, rep: string)
    requires |pat| > 0 && |rep| > 0
    requires pat[0] !in rep && rep[0] !in pat[1..]
    ensures !Contains(ReplaceAll(s, pat, rep), pat)
    decreases |s|
  {
    if |s| > 0 {
      if pat <= s {
        var rest := ReplaceAll(s[|pat|..], pat, rep);
        ReplaceLeavesNoPattern(s[|pat|..], pat, rep);
        ContainsPastPrefix(rep, rest, pat);
      } else {
        var rest := ReplaceAll(s[1..], pat, rep);
        assert ReplaceAll(s, pat, rep) == [s[0]] + rest;
        assert ([s[0]] + rest)[1..] == rest;
        assert pat <= [s[0]] + rest ==> pat[1..] <= rest && pat[0] == s[0];
        assert pat[1..] <= s[1..] && pat[0] == s[0] ==> pat <= s;
        ReplaceLeavesNoPattern(s[1..], pat, rep);
        PrefixBeforeReplacement(s[1..], pat[1..], pat, rep);
      }
    }
  }

  /** An occurrence in a suffix is an occurrence. */
  lemma {:induction false} ContainsSuffix(s: string, i: nat, p: string)
    requires i <= |s| && Contains(s[i..], p)
    ensures Contains(s, p)
    decreases i
  {
    if i > 0 {
      assert s[1..][i - 1..] == s[i..];
      ContainsSuffix(s[1..], i - 1, p);
    }
  }

  /** `p` cannot occur in a string that lacks its first letter. */
  lemma {:induction false} NoLetter(s: string, p: string, c: char)
    requires |p| > 0 && p[0] == c
    requires forall i :: 0 <= i < |s| ==> s[i] != c
    ensures !Contains(s, p)
    decreases |s|
  {
    if |s| > 0 {
      NoLetter(s[1..], p, c);
    }
  }

  /** `p` does not start at the head of `s`, nor occur in its tail. */
  lemma NotContainsStep(s: string, p: string)
    requires |s| > 0 && |p| > 0 && s[0] != p[0] && !Contains(s[1..], p)
    ensures !Contains(s, p)
  {
  }

  /** `replace` copies a prefix `a` in which no match of `pat` starts:
      each of its positions differs from `pat` in the first or second
      character. */
  lemma {:induction false} ReplaceAfterNoMatch(a: string, b: string, pat: string, rep: string)
    requires |pat| >= 2
    requires forall i :: 0 <= i < |a| ==> (a + b)[i] != pat[0] || (i + 1 < |a + b| && (a + b)[i + 1] != pat[1])
    ensures ReplaceAll(a + b, pat, rep) == a + ReplaceAll(b, pat, rep)
    decreases |a|
  {
    if |a| == 0 {
      assert a + b == b;
    } else {
      var s := a + b;
      assert s[0] != pat[0] || (1 < |s| && s[1] != pat[1]);
      assert !(pat <= s);
      assert s[1..] == a[1..] + b;
      forall i | 0 <= i < |a[1..]|
        ensures (a[1..] + b)[i] != pat[0] || (i + 1 < |a[1..] + b| && (a[1..] + b)[i + 1] != pat[1])
      {
        assert s[i + 1] != pat[0] || (i + 2 < |s| && s[i + 2] != pat[1]);
        assert (a[1..] + b)[i] == s[i + 1];
        if i + 2 < |s| {
          assert (a[1..] + b)[i + 1] == s[i + 2];
        }
      }
      ReplaceAfterNoMatch(a[1..], b, pat, rep);
      assert a == [a[0]] + a[1..];
    }
  }

  /** `replace` turns the pattern itself into the replacement. */
  lemma ReplaceWhole(pat: string, rep: string)
    requires |pat| > 0
    ensures ReplaceAll(pat, pat, rep) == rep
  {
    assert pat[|pat|..] == [];
  }

  /** Replacing `pat` by `rep` and then `rep` by `pat` restores a string that
      held no `rep`, when `rep` does not repeat its first character: no new
      `rep` can form across the boundary of an inserted one. */
  lemma {:induction false} ReplaceRoundTrip(s: string, pat: string, rep: string)
    requires |pat| > 0 && |rep| > 0 && rep[0] !in rep[1..]
    ensures !Contains(s, rep) ==> ReplaceAll(ReplaceAll(s, pat, rep), rep, pat) == s
    decreases |s|
  {
    if |s| > 0 && !Contains(s, rep) {
      if pat <= s {
        var t := s[|pat|..];
        if Contains(t, rep) {
          ContainsSuffix(s, |pat|, rep);
          assert false;
        }
        ReplaceRoundTrip(t, pat, rep);
        var y := ReplaceAll(t, pat, rep);
        assert ReplaceAll(s, pat, rep) == rep + y;
        assert rep <= rep + y;
        assert (rep + y)[|rep|..] == y;
        assert ReplaceAll(rep + y, rep, pat) == pat + ReplaceAll(y, rep, pat);
        assert s == pat + t;
      } else {
        var t := s[1..];
        ReplaceRoundTrip(t, pat, rep);
        var y := ReplaceAll(t, pat, rep);
        assert ReplaceAll(s, pat, rep) == [s[0]] + y;
        PrefixBeforeReplacement(t, rep[1..], pat, rep);
        assert ([s[0]] + y)[1..] == y;
        assert ReplaceAll([s[0]] + y, rep, pat) == [s[0]] + ReplaceAll(y, rep, pat);
        assert s == [s[0]] + t;
      }
    }
  }
}

=== FILE: style.dfy ===
/** The `style` context manager of sciplot/main.py and the module state it
    touches: the `RC_PARAMS` and `dark_mode` globals, and the renderer's own
    parameter table, which `mpl.rc_context` saves on entry and restores on
    exit. Entering is split from leaving so that the body of the `with`
    block can run, or raise, in between. */
module Style {
  import opened Results
  import opened Lists
  import opened Params
  import opened Themes
  import Colors

  /** The state `style` reads and writes: `RC_PARAMS`, `dark_mode`, and
      the renderer's parameter table (`plt.rcParams`). */
  datatype Globals = Globals(rcParams: ParamMap, darkMode: bool, renderer: ParamMap)

  /** What `rc_context` saved when the block was entered. */
  datatype Scope = Scope(saved: ParamMap)

  /** The state after entering, and either the open scope or the error
      `style` raised before reaching its `yield`. */
  datatype Entry = Entry(globals: Globals, scope: Result<Scope, StyleError>)

  /** Lines 157-187 of `style`, up to the `yield`. `darkBackground` is the
      table `plt.style.use('dark_background')` applies. Resolution errors
      raise before any state changes. The `'dark'` theme switches dark mode
      on while its stems are collected, before any preset is looked up, so
      a missing preset raises with dark mode already on. Otherwise the
      merged presets, updated with the custom dictionary, become
      `RC_PARAMS` and are applied on top of the saved renderer table. */
  function EnterStyle(g: Globals, input: ThemeInput, presets: map<string, ParamMap>, darkBackground: ParamMap): (e: Entry)
    ensures ResolveThemes(input).Err? ==> e == Entry(g, Err(ResolveThemes(input).error))
    ensures ResolveThemes(input).Ok? ==>
              (e.globals.darkMode <==> g.darkMode || "dark" in ResolveThemes(input).value.themes)
    ensures ResolveThemes(input).Ok? ==>
              (e.scope.Ok? <==>
                 forall t, s :: t in ResolveThemes(input).value.themes && t in Priority && s in ThemeStems(t) ==> s in presets)
    ensures e.scope.Err? ==> e.globals.rcParams == g.rcParams
    ensures e.scope.Err? ==>
              e.globals.renderer == (if ResolveThemes(input).Ok? && "dark" in ResolveThemes(input).value.themes
                                     then g.renderer + darkBackground else g.renderer)
    ensures e.scope.Err? && ResolveThemes(input).Ok? ==>
              e.scope.error.MissingPreset? && e.scope.error.stem !in presets
    ensures e.scope.Ok? ==>
              e.scope.value.saved == (if "dark" in ResolveThemes(input).value.themes then g.renderer + darkBackground else g.renderer)
    ensures e.scope.Ok? ==> e.globals.renderer == e.scope.value.saved + e.globals.rcParams
  {
    match ResolveThemes(input)
    case Err(err) => Entry(g, Err(err))
    case Ok(res) =>
      assert forall t :: t in res.themes ==> t in Priority by {
        forall t | t in res.themes
          ensures t in Priority
        {
          assert ThemeExists(t);
        }
      }
      ParametersForOkIffCovered(res.themes, presets);
      var g1 := if "dark" in res.themes then g.(darkMode := true, renderer := g.renderer + darkBackground) else g;
      match ParametersFor(res.themes, presets)
      case Err(err) => Entry(g1, Err(err))
      case Ok(params) =>
        var rc := UpdateAll(params, res.custom);
        Entry(Globals(rc, g1.darkMode, g1.renderer + rc), Ok(Scope(g1.renderer)))
  }

  /** Leaving the `with` block: `rc_context` writes the saved table back
      over the renderer's, whether or not the block raised. Only a block
      that ends normally reaches lines 190-192, which clear `RC_PARAMS` and
      switch dark mode off. */
  function ExitStyle(g: Globals, scope: Scope, raised: bool): (r: Globals)
    ensures forall k :: k in scope.saved ==> k in r.renderer && r.renderer[k] == scope.saved[k]
    ensures forall k :: k !in scope.saved ==> Lookup(r.renderer, k) == Lookup(g.renderer, k)
    ensures !raised ==> r.rcParams == map[] && !r.darkMode
    ensures raised ==> r.rcParams == g.rcParams && r.darkMode == g.darkMode
  {
    var renderer := g.renderer + scope.saved;
    if raised then g.(renderer := renderer) else Globals(map[], false, renderer)
  }

  /** Entering and then leaving normally restores every parameter the
      renderer had, apart from the dark background the `'dark'` theme
      applied, which `rc_context` saved along with the rest; keys the style
      added that the renderer did not know stay behind. `RC_PARAMS` is
      emptied and dark mode is off. */
  lemma StyleRoundTrip(g: Globals, input: ThemeInput, presets: map<string, ParamMap>, darkBackground: ParamMap)
    requires EnterStyle(g, input, presets, darkBackground).scope.Ok?
    ensures var e := EnterStyle(g, input, presets, darkBackground);
            var base := if "dark" in ResolveThemes(input).value.themes then g.renderer + darkBackground else g.renderer;
            var r := ExitStyle(e.globals, e.scope.value, false);
            && r.rcParams == map[] && !r.darkMode
            && base.Keys <= r.renderer.Keys
            && (forall k :: k in base ==> r.renderer[k] == base[k])
            && r.renderer.Keys == base.Keys + e.globals.rcParams.Keys
            && (e.globals.rcParams.Keys <= base.Keys ==> r.renderer == base)
  {
    var e := EnterStyle(g, input, presets, darkBackground);
    var base := if "dark" in ResolveThemes(input).value.themes then g.renderer + darkBackground else g.renderer;
    assert e.scope.value.saved == base;
    assert e.globals.renderer == base + e.globals.rcParams;
    RestoreOver(base, e.globals.rcParams);
  }

  /** Writing a saved table back over itself updated with `rc`. */
  lemma RestoreOver(saved: ParamMap, rc: ParamMap)
    ensures (saved + rc + saved).Keys == saved.Keys + rc.Keys
    ensures forall k :: k in saved ==> (saved + rc + saved)[k] == saved[k]
    ensures rc.Keys <= saved.Keys ==> saved + rc + saved == saved
  {
  }

  /** The preset table holds every stem of every theme, as the installed
      package does. */
  predicate FullPresets(presets: map<string, ParamMap>) {
    forall t, s :: t in Priority && s in ThemeStems(t) ==> s in presets
  }

  /** A request of names only in which every name is a theme or `'clean'`. */
  predicate KnownNames(input: ThemeInput) {
    NamesOnly(input) && forall n :: n in Requested(input) ==> ThemeExists(n) || n == "clean"
  }

  /** A known request that asks for `'dark'` resolves to themes including
      `'dark'`, all of them priority themes. */
  lemma DarkResolved(input: ThemeInput)
    requires KnownNames(input) && "dark" in Requested(input)
    ensures ResolveThemes(input).Ok?
    ensures "dark" in ResolveThemes(input).value.themes
    ensures forall t :: t in ResolveThemes(input).value.themes ==> t in Priority
  {
    ResolveNames(input);
    var themes := ResolveThemes(input).value.themes;
    assert "dark" in Elems(themes);
    forall t | t in themes
      ensures t in Priority
    {
      assert ThemeExists(t);
    }
  }

  /** A block that raises leaves dark mode on after a `'dark'` style, so a
      later `get_color_lst(1)` answers white; a normal exit turns it off. */
  lemma RaisedBlockKeepsDarkMode(g: Globals, input: ThemeInput, presets: map<string, ParamMap>, darkBackground: ParamMap, color: string)
    requires KnownNames(input) && "dark" in Requested(input)
    requires FullPresets(presets)
    ensures var e := EnterStyle(g, input, presets, darkBackground);
            && e.scope.Ok?
            && ExitStyle(e.globals, e.scope.value, true).darkMode
            && Colors.ColorList(Colors.Int(1), [color], false, ExitStyle(e.globals, e.scope.value, true).darkMode) == Ok([Colors.White])
            && !ExitStyle(e.globals, e.scope.value, false).darkMode
  {
    DarkResolved(input);
    var themes := ResolveThemes(input).value.themes;
    assert Covered(themes, presets);
    ParametersForOkIffCovered(themes, presets);
  }

  /** A `'dark'` style whose `colors_dark` preset is missing raises, yet
      leaves dark mode on and the dark background applied. */
  lemma MissingPresetLeaksDarkMode(g: Globals, input: ThemeInput, presets: map<string, ParamMap>, darkBackground: ParamMap)
    requires KnownNames(input) && "dark" in Requested(input)
    requires "colors_dark" !in presets
    ensures var e := EnterStyle(g, input, presets, darkBackground);
            && e.scope.Err? && e.scope.error.MissingPreset?
            && e.globals.darkMode
            && e.globals.renderer == g.renderer + darkBackground
  {
    DarkResolved(input);
    var themes := ResolveThemes(input).value.themes;
    assert "colors_dark" in ThemeStems("dark");
    assert !Covered(themes, presets);
    ParametersForOkIffCovered(themes, presets);
  }

  /** For a request of names only, starting outside dark mode: dark mode is
      on after entering exactly when `'dark'` was asked for and every name
      asked for is a theme or `'clean'`. */
  lemma DarkModeIffRequested(g: Globals, input: ThemeInput, presets: map<string, ParamMap>, darkBackground: ParamMap)
    requires NamesOnly(input) && !g.darkMode
    ensures EnterStyle(g, input, presets, darkBackground).globals.darkMode
        <==> "dark" in Requested(input) && forall n :: n in Requested(input) ==> ThemeExists(n) || n == "clean"
  {
    ResolveNames(input);
    if ResolveThemes(input).Ok? {
      var themes := ResolveThemes(input).value.themes;
      assert "dark" in themes <==> "dark" in Elems(themes);
      assert "dark" in DefaultRule(Requested(input)) <==> "dark" in Requested(input);
    }
  }

  /** A custom dictionary on its own is the whole of `RC_PARAMS`; no theme
      is applied and dark mode is untouched. */
  lemma CustomAlone(g: Globals, params: ParamMap, presets: map<string, ParamMap>, darkBackground: ParamMap)
    ensures var e := EnterStyle(g, Custom(params), presets, darkBackground);
            && e.scope == Ok(Scope(g.renderer))
            && e.globals.rcParams == params
            && e.globals.darkMode == g.darkMode
  {
    assert ResolveThemes(Custom(params)) == Ok(Resolved([], [params]));
    assert UpdateAll(map[], [params]) == map[] + params;
  }

  /** `'clean'` alone, and the empty list, apply nothing. */
  lemma NothingApplied(g: Globals, presets: map<string, ParamMap>, darkBackground: ParamMap)
    ensures EnterStyle(g, Name("clean"), presets, darkBackground) == Entry(g.(rcParams := map[], renderer := g.renderer + map[]), Ok(Scope(g.renderer)))
    ensures EnterStyle(g, List([]), presets, darkBackground) == Entry(g.(rcParams := map[], renderer := g.renderer + map[]), Ok(Scope(g.renderer)))
  {
    ResolveNothing();
  }

  /** `'clean'` alone, and the empty list, resolve to no theme and no
      custom dictionary. */
  lemma ResolveNothing()
    ensures ResolveThemes(Name("clean")) == Ok(Resolved([], []))
    ensures ResolveThemes(List([])) == Ok(Resolved([], []))
  {
    assert RemoveFirst(["clean"], "clean") == [];
    assert DefaultThemes(["clean"]) == [];
    assert ValidatedThemes([]) == Ok([]);
  }

  /** The default argument `'default'` merges exactly the default theme's
      presets, later files overwriting earlier ones, when they all exist. */
  lemma DefaultArgument(g: Globals, presets: map<string, ParamMap>, darkBackground: ParamMap)
    requires forall s :: s in ThemeStems("default") ==> s in presets
    ensures var e := EnterStyle(g, Name("default"), presets, darkBackground);
            && e.scope == Ok(Scope(g.renderer))
            && e.globals.rcParams == UpdateAll(map[], PresetMaps(ThemeStems("default"), presets))
            && e.globals.darkMode == g.darkMode
  {
    ResolveDefault();
    DefaultParameters(presets);
    var params := UpdateAll(map[], PresetMaps(ThemeStems("default"), presets));
    assert UpdateAll(params, []) == params;
  }

  /** `'default'` resolves to the default theme alone. */
  lemma ResolveDefault()
    ensures ResolveThemes(Name("default")) == Ok(Resolved(["default"], []))
  {
    assert DefaultThemes(["default"]) == ["default"];
    assert FirstUnknown(["default"]) == None;
    assert Keep(Priority, ["default"]) == ["default"];
    assert ValidatedThemes(["default"]) == Ok(["default"]);
    ResolveParsedNames(Name("default"));
  }

  /** The default theme merges its stems in order. */
  lemma DefaultParameters(presets: map<string, ParamMap>)
    requires forall s :: s in ThemeStems("default") ==> s in presets
    ensures ParametersFor(["default"], presets) == Ok(UpdateAll(map[], PresetMaps(ThemeStems("default"), presets)))
  {
    assert Reverse(["default"]) == ["default"];
    DefaultStems();
  }

  /** The default theme's stems survive the filter against the theme list. */
  lemma DefaultStems()
    ensures CollectStems(["default"], ["default"]) == ThemeStems("default")
  {
    var stems := ThemeStems("default");
    assert "default" !in stems;
    WithoutDisjoint(stems, ["default"]);
    assert ["default"][1..] == [];
  }

  /** A custom dictionary is never resolved together with a theme: a lone
      dictionary selects no theme, and a list mixing one with names raises. */
  lemma CustomNeverWithThemes(input: ThemeInput)
    requires ResolveThemes(input).Ok? && |ResolveThemes(input).value.custom| > 0
    ensures ResolveThemes(input).value.themes == []
  {
  }

  /** `RC_PARAMS` key by key: the custom dictionary decides the keys it
      defines; every other key is decided by the highest-priority theme
      whose presets define it. */
  lemma CustomBeatsThemes(g: Globals, input: ThemeInput, presets: map<string, ParamMap>, darkBackground: ParamMap, k: string)
    requires EnterStyle(g, input, presets, darkBackground).scope.Ok?
    ensures var res := ResolveThemes(input).value;
            && (forall t :: t in res.themes ==> t in Priority)
            && Covered(res.themes, presets)
            && Lookup(EnterStyle(g, input, presets, darkBackground).globals.rcParams, k)
               == if |res.custom| == 1 && k in res.custom[0] then Some(res.custom[0][k])
                  else ThemeWinner(res.themes, presets, k)
  {
    var res := ResolveThemes(input).value;
    assert forall t :: t in res.themes ==> t in Priority by {
      forall t | t in res.themes
        ensures t in Priority
      {
        assert ThemeExists(t);
      }
    }
    ParametersForOkIffCovered(res.themes, presets);
    PriorityWinner(res.themes, presets, k);
    var params := ParametersFor(res.themes, presets).value;
    if |res.custom| == 1 {
      assert UpdateAll(params, res.custom) == UpdateAll(params, []) + res.custom[0];
    } else {
      assert res.custom == [];
    }
  }
}

=== FILE: themes.dfy ===
/** Theme resolution in sciplot/main.py: parsing the `themes` argument of
    `style`, the `'clean'`/`'default'` rule, validation against the priority
    list, the theme -> preset-stem table, and the priority-ordered merge of
    the preset maps. The preset table `THEME_PARAMS` (loaded from YAML files
    at import time) is a parameter `presets`. */
module Themes {
  import opened Results
  import opened Lists
  import opened Params

  /** `PRIORITY_THEME_LST`: the known themes, highest priority first. */
  const Priority: seq<string> := ["no-latex", "serif", "sans-serif", "dark", "default"]

  /** One element of a list passed as `themes`: a theme name, a dict of
      custom parameters, or a value of any other Python type. */
  datatype ThemeItem = ItemName(name: string) | ItemCustom(params: ParamMap) | ItemOther

  /** The dynamically typed `themes` argument: a string, a dict, a list, or
      a value of any other Python type. */
  datatype ThemeInput = Name(name: string) | Custom(params: ParamMap) | List(items: seq<ThemeItem>) | Other

  /** What `style` can raise before its block runs. */
  datatype StyleError =
    | IncorrectItemType           // SciplotException: a list element is neither str nor dict
    | IncorrectInputType          // SciplotException: `themes` is neither str, dict nor list
    | UnhashableDict              // TypeError: a dict is put into a Python set
    | UnknownTheme(theme: string) // SciplotException: a name outside `PRIORITY_THEME_LST`
    | MissingPreset(stem: string) // KeyError: `THEME_PARAMS` has no such stem

  /** `_parse_themes`' pair: the theme names and the custom dicts, `None`
      where the source returns `None`. */
  datatype Parsed = Parsed(names: Option<seq<string>>, custom: Option<seq<ParamMap>>)

  /** The themes to merge, in priority order, and the custom dicts to apply
      after them. */
  datatype Resolved = Resolved(themes: seq<string>, custom: seq<ParamMap>)

  /** The theme names of a list, in list order. */
  function NamesOf(items: seq<ThemeItem>): (r: seq<string>)
    ensures forall n :: n in r <==> ItemName(n) in items
  {
    if |items| == 0 then []
    else
      assert items == [items[0]] + items[1..];
      (if items[0].ItemName? then [items[0].name] else []) + NamesOf(items[1..])
  }

  /** The custom dicts of a list, in list order. */
  function CustomsOf(items: seq<ThemeItem>): (r: seq<ParamMap>)
    ensures |r| == 0 <==> forall i :: 0 <= i < |items| ==> !items[i].ItemCustom?
  {
    if |items| == 0 then []
    else
      assert forall i :: 1 <= i < |items| ==> items[i] == items[1..][i - 1];
      (if items[0].ItemCustom? then [items[0].params] else []) + CustomsOf(items[1..])
  }

  /** `_parse_themes`. A list is scanned for elements of a wrong type first;
      then a list holding any dict ends in a `TypeError`, because the source
      builds a Python set of dicts (lines 85 and 89). A list of names comes
      back without duplicates and with the same names. */
  function ParseThemes(input: ThemeInput): (r: Result<Parsed, StyleError>)
    ensures input.Name? ==> r == Ok(Parsed(Some([input.name]), None))
    ensures input.Custom? ==> r == Ok(Parsed(None, Some([input.params])))
    ensures input.Other? ==> r == Err(IncorrectInputType)
    ensures input.List? ==>
              (r.Err? <==> exists i :: 0 <= i < |input.items| && !input.items[i].ItemName?)
    ensures input.List? ==>
              (r == Err(IncorrectItemType) <==> exists i :: 0 <= i < |input.items| && input.items[i].ItemOther?)
    ensures input.List? && |input.items| == 0 ==> r == Ok(Parsed(None, Some([])))
    ensures input.List? && (exists i :: 0 <= i < |input.items| && input.items[i].ItemCustom?)
              && (forall i :: 0 <= i < |input.items| ==> !input.items[i].ItemOther?) ==>
              r == Err(UnhashableDict)
    ensures input.List? && |input.items| > 0 && r.Ok? ==>
              r.value.custom.None? && r.value.names.Some? && NoDup(r.value.names.value)
              && forall n :: n in r.value.names.value <==> ItemName(n) in input.items
  {
    match input
    case Name(s) => Ok(Parsed(Some([s]), None))
    case Custom(d) => Ok(Parsed(None, Some([d])))
    case List(items) =>
      if exists i :: 0 <= i < |items| && items[i].ItemOther? then Err(IncorrectItemType)
      else
        var names := NamesOf(items);
        var customs := CustomsOf(items);
        if |names| == 0 then
          if |customs| == 0 then Ok(Parsed(None, Some([]))) else Err(UnhashableDict)
        else if |customs| == 0 then
          assert Elems(Dedup(names)) == Elems(names);
          assert forall n :: n in Dedup(names) <==> n in Elems(Dedup(names));
          Ok(Parsed(Some(Dedup(names)), None))
        else Err(UnhashableDict)
    case Other => Err(IncorrectInputType)
  }

  /** `_get_default_theme_lst`: `'clean'` removes itself and `'default'`;
      without `'clean'`, `'default'` is appended unless already there. */
  function DefaultThemes(lst: seq<string>): (r: seq<string>)
    ensures "clean" in lst ==> multiset(r) == multiset(lst) - multiset{"clean", "default"}
    ensures "clean" !in lst ==>
              multiset(r) == multiset(lst) + (if "default" in lst then multiset{} else multiset{"default"})
  {
    if "clean" in lst then
      var withoutDefault := if "default" in lst then RemoveFirst(lst, "default") else lst;
      assert multiset(withoutDefault) == multiset(lst) - multiset{"default"};
      assert "clean" in multiset(withoutDefault);
      var r := RemoveFirst(withoutDefault, "clean");
      RemoveBoth(multiset(lst), multiset(withoutDefault), multiset(r));
      r
    else if "default" in lst then lst
    else
      assert multiset(lst + ["default"]) == multiset(lst) + multiset{"default"};
      lst + ["default"]
  }

  /** Taking one `'default'` and then one `'clean'` out of a multiset takes
      both out at once. */
  lemma RemoveBoth(a: multiset<string>, b: multiset<string>, c: multiset<string>)
    requires b == a - multiset{"default"} && c == b - multiset{"clean"}
    ensures c == a - multiset{"clean", "default"}
  {
    assert forall t :: c[t] == (a - multiset{"clean", "default"})[t];
  }

  /** Without `'clean'`, the requested themes keep their order and
      `'default'` can only come after them. */
  lemma {:induction false} DefaultThemesKeepsOrder(lst: seq<string>)
    ensures "clean" !in lst ==> lst <= DefaultThemes(lst)
  {
    if "clean" !in lst && "default" !in lst {
      assert lst <= lst + ["default"];
    }
  }

  /** On a list without duplicates, as `_parse_themes` produces, the
      `'clean'`/`'default'` rule is a set operation, and no duplicate appears. */
  lemma {:induction false} DefaultThemesRule(lst: seq<string>)
    requires NoDup(lst)
    ensures NoDup(DefaultThemes(lst))
    ensures Elems(DefaultThemes(lst)) == DefaultRule(Elems(lst))
  {
    assert "clean" in lst <==> "clean" in Elems(lst);
    if "clean" in lst {
      var withoutDefault := if "default" in lst then RemoveFirst(lst, "default") else lst;
      if "default" in lst {
        RemoveFirstNoDup(lst, "default");
        assert Elems(withoutDefault) == Elems(lst) - {"default"};
      } else {
        assert "default" !in Elems(lst);
      }
      assert "clean" in Elems(withoutDefault);
      RemoveFirstNoDup(withoutDefault, "clean");
    } else if "default" !in lst {
      assert Elems(lst + ["default"]) == Elems(lst) + {"default"};
      forall i, j | 0 <= i < j < |lst + ["default"]|
        ensures (lst + ["default"])[i] != (lst + ["default"])[j]
      {
        if j == |lst| {
          assert lst[i] in lst;
        }
      }
    } else {
      assert "default" in Elems(lst);
    }
  }

  /** `_theme_exists`: one of the five known names; `'clean'` is not one. */
  predicate ThemeExists(theme: string): (b: bool)
    ensures b <==> theme == "no-latex" || theme == "serif" || theme == "sans-serif" || theme == "dark" || theme == "default"
  {
    theme in Priority
  }

  /** The first name the existence check in `style` rejects, if any. */
  function FirstUnknown(lst: seq<string>): (r: Option<string>)
    ensures r.None? <==> forall t :: t in lst ==> ThemeExists(t)
    ensures r.Some? ==> r.value in lst && !ThemeExists(r.value)
  {
    if |lst| == 0 then None
    else if !ThemeExists(lst[0]) then Some(lst[0])
    else
      assert forall t :: t in lst ==> t == lst[0] || t in lst[1..];
      FirstUnknown(lst[1..])
  }

  /** `a` is `b` with some elements left out. */
  predicate IsSubsequence(a: seq<string>, b: seq<string>)
    decreases |b|
  {
    |a| == 0 || (|b| > 0 && ((a[0] == b[0] && IsSubsequence(a[1..], b[1..])) || IsSubsequence(a, b[1..])))
  }

  /** `[t for t in order if t in lst]`. */
  function Keep(order: seq<string>, lst: seq<string>): (r: seq<string>)
    ensures IsSubsequence(r, order)
    ensures forall t :: t in r <==> t in order && t in lst
  {
    if |order| == 0 then []
    else
      var rest := Keep(order[1..], lst);
      assert forall t :: t in order <==> t == order[0] || t in order[1..];
      if order[0] in lst then
        assert ([order[0]] + rest)[1..] == rest;
        [order[0]] + rest
      else rest
  }

  /** The existence check and the priority ordering in `style`: every name
      must be known, and the result lists exactly those names in priority
      order; otherwise the first unknown name is reported. */
  function ValidatedThemes(lst: seq<string>): (r: Result<seq<string>, StyleError>)
    ensures r.Ok? <==> forall t :: t in lst ==> ThemeExists(t)
    ensures r.Ok? ==> IsSubsequence(r.value, Priority) && forall t :: t in r.value <==> t in lst
    ensures r.Err? ==> r.error.UnknownTheme? && r.error.theme in lst && !ThemeExists(r.error.theme)
  {
    match FirstUnknown(lst)
    case Some(t) => Err(UnknownTheme(t))
    case None => Ok(Keep(Priority, lst))
  }

  /** The names a request holds, as a set. */
  function Requested(input: ThemeInput): set<string> {
    match input
    case Name(s) => {s}
    case List(items) => Elems(NamesOf(items))
    case _ => {}
  }

  /** A request made of names only: a string, or a non-empty list of strings. */
  predicate NamesOnly(input: ThemeInput) {
    input.Name? || (input.List? && |input.items| > 0 && forall i :: 0 <= i < |input.items| ==> input.items[i].ItemName?)
  }

  /** Lines 159-171 of `style`: parse, apply the `'clean'`/`'default'`
      rule, reject unknown names, and order the themes by priority. */
  function ResolveThemes(input: ThemeInput): (r: Result<Resolved, StyleError>)
    ensures ParseThemes(input).Err? ==> r == Err(ParseThemes(input).error)
    ensures r.Ok? ==> IsSubsequence(r.value.themes, Priority)
    ensures r.Ok? ==> forall t :: t in r.value.themes ==> ThemeExists(t)
    ensures r.Ok? ==> |r.value.custom| <= 1
    ensures r.Err? ==> ParseThemes(input).Err? || r.error.UnknownTheme?
  {
    var parsed :- ParseThemes(input);
    var themes :- (match parsed.names
                   case None => Ok([])
                   case Some(lst) => if |lst| == 0 then Ok([]) else ValidatedThemes(DefaultThemes(lst)));
    Ok(Resolved(themes, if parsed.custom.Some? then parsed.custom.value else []))
  }

  /** The `'clean'`/`'default'` rule on a set of names. */
  function DefaultRule(names: set<string>): set<string> {
    if "clean" in names then names - {"clean", "default"} else names + {"default"}
  }

  /** For a request of names only, resolution succeeds exactly when every
      name is a known theme or `'clean'`; the resolved themes are
      `DefaultRule` of the requested names; an error names a requested
      unknown theme. The set of names decides everything, so the order a
      Python set happens to iterate in does not matter. */
  lemma {:induction false} ResolveNames(input: ThemeInput)
    requires NamesOnly(input)
    ensures ResolveThemes(input).Ok?
        <==> forall n :: n in Requested(input) ==> ThemeExists(n) || n == "clean"
    ensures ResolveThemes(input).Ok? ==>
              && ResolveThemes(input).value.custom == []
              && Elems(ResolveThemes(input).value.themes) == DefaultRule(Requested(input))
    ensures ResolveThemes(input).Err? ==>
              && ResolveThemes(input).error.UnknownTheme?
              && ResolveThemes(input).error.theme in Requested(input)
              && !ThemeExists(ResolveThemes(input).error.theme)
              && ResolveThemes(input).error.theme != "clean"
  {
    ParsedNames(input);
    var lst := ParseThemes(input).value.names.value;
    var d := DefaultThemes(lst);
    DefaultThemesRule(lst);
    ValidatedSet(d, Requested(input));
    ResolveParsedNames(input);
  }

  /** A parse that yields a non-empty name list and no dict resolves to
      the validation of that list after the `'clean'`/`'default'` rule. */
  lemma ResolveParsedNames(input: ThemeInput)
    requires ParseThemes(input).Ok? && ParseThemes(input).value.custom.None?
    requires ParseThemes(input).value.names.Some? && |ParseThemes(input).value.names.value| > 0
    ensures ResolveThemes(input)
         == match ValidatedThemes(DefaultThemes(ParseThemes(input).value.names.value))
            case Err(e) => Err(e)
            case Ok(ts) => Ok(Resolved(ts, []))
  {
  }

  /** A request of names only parses to a non-empty, duplicate-free list
      holding exactly the requested names, and no custom dict. */
  lemma {:induction false} ParsedNames(input: ThemeInput)
    requires NamesOnly(input)
    ensures ParseThemes(input).Ok?
    ensures ParseThemes(input).value.custom.None? && ParseThemes(input).value.names.Some?
    ensures var lst := ParseThemes(input).value.names.value;
            |lst| > 0 && NoDup(lst) && Elems(lst) == Requested(input)
  {
    if input.List? {
      var lst := ParseThemes(input).value.names.value;
      assert input.items[0] in input.items;
      assert forall n :: n in lst <==> n in NamesOf(input.items);
    }
  }

  /** Validation of a list whose names are `DefaultRule(names)`, in set
      terms: it succeeds iff every requested name is a theme or `'clean'`,
      keeps the same names, and otherwise reports a requested unknown name. */
  lemma {:induction false} ValidatedSet(d: seq<string>, names: set<string>)
    requires Elems(d) == DefaultRule(names)
    ensures ValidatedThemes(d).Ok? <==> forall n :: n in names ==> ThemeExists(n) || n == "clean"
    ensures ValidatedThemes(d).Ok? ==> Elems(ValidatedThemes(d).value) == DefaultRule(names)
    ensures ValidatedThemes(d).Err? ==>
              && ValidatedThemes(d).error.UnknownTheme?
              && ValidatedThemes(d).error.theme in names
              && !ThemeExists(ValidatedThemes(d).error.theme)
              && ValidatedThemes(d).error.theme != "clean"
  {
    match FirstUnknown(d)
    case None =>
      assert Elems(Keep(Priority, d)) == Elems(d);
      forall n | n in names
        ensures ThemeExists(n) || n == "clean"
      {
        if n != "clean" && n != "default" {
          assert n in Elems(d);
        }
      }
    case Some(t) =>
      assert t in Elems(d);
  }

  /** `_get_theme_parameter_lst`: the preset stems each theme pulls in. Any
      other name would leave the local list unbound; `style` only calls this
      after the existence check. */
  function ThemeStems(theme: string): (r: seq<string>)
    requires theme in Priority
    ensures 1 <= |r| <= 5 && NoDup(r)
    ensures theme == "default" <==> |r| == 5
  {
    if theme == "default" then ["basic", "typesetting", "colors_light", "fonts_cm_sans_serif", "latex_sans_serif"]
    else if theme == "dark" then ["colors_dark"]
    else if theme == "serif" then ["fonts_cm_serif", "latex_serif"]
    else if theme == "sans-serif" then ["fonts_cm_sans_serif", "latex_sans_serif"]
    else ["no_latex"]
  }

  /** `[s for s in stems if s not in exclude]`. */
  function Without(stems: seq<string>, exclude: seq<string>): seq<string> {
    if |stems| == 0 then []
    else (if stems[0] in exclude then [] else [stems[0]]) + Without(stems[1..], exclude)
  }

  /** The filter keeps exactly the stems outside `exclude`, and never adds
      any. */
  lemma {:induction false} WithoutMembers(stems: seq<string>, exclude: seq<string>)
    ensures forall s :: s in Without(stems, exclude) <==> s in stems && s !in exclude
    ensures |Without(stems, exclude)| <= |stems|
  {
    if |stems| > 0 {
      WithoutMembers(stems[1..], exclude);
      assert forall s :: s in stems <==> s == stems[0] || s in stems[1..];
    }
  }

  /** The loop at lines 141-142: the stems of each theme in turn, each list
      filtered against `exclude`. */
  function CollectStems(themes: seq<string>, exclude: seq<string>): (r: seq<string>)
    requires forall t :: t in themes ==> t in Priority
    ensures forall s :: s in r ==> s !in exclude
    ensures |r| <= 5 * |themes|
  {
    if |themes| == 0 then []
    else
      assert themes[0] in themes;
      WithoutMembers(ThemeStems(themes[0]), exclude);
      Without(ThemeStems(themes[0]), exclude) + CollectStems(themes[1..], exclude)
  }

  /** No preset stem is also a theme name, so the `param not in
      prio_theme_lst` filter of line 142 never drops a stem. */
  lemma {:induction false} StemFilterIsVacuous(themes: seq<string>, exclude: seq<string>)
    requires forall t :: t in themes ==> t in Priority
    requires forall t :: t in exclude ==> t in Priority
    ensures CollectStems(themes, exclude) == CollectStems(themes, [])
  {
    if |themes| > 0 {
      StemFilterIsVacuous(themes[1..], exclude);
      var stems := ThemeStems(themes[0]);
      assert forall s :: s in stems ==> s !in Priority;
      WithoutDisjoint(stems, exclude);
      WithoutDisjoint(stems, []);
    }
  }

  /** Filtering against a list that shares no element keeps everything. */
  lemma {:induction false} WithoutDisjoint(stems: seq<string>, exclude: seq<string>)
    requires forall s :: s in stems ==> s !in exclude
    ensures Without(stems, exclude) == stems
  {
    if |stems| > 0 {
      assert stems[0] in stems;
      WithoutDisjoint(stems[1..], exclude);
      assert stems == [stems[0]] + stems[1..];
    }
  }

  /** A stem is collected exactly when one of the themes pulls it in. */
  lemma {:induction false} CollectStemsMembers(themes: seq<string>, s: string)
    requires forall t :: t in themes ==> t in Priority
    ensures s in CollectStems(themes, []) <==> exists t :: t in themes && s in ThemeStems(t)
  {
    if |themes| > 0 {
      CollectStemsMembers(themes[1..], s);
      WithoutDisjoint(ThemeStems(themes[0]), []);
      assert forall t :: t in themes <==> t == themes[0] || t in themes[1..];
    }
  }

  /** Collecting over `a + b` collects `a`'s stems, then `b`'s. */
  lemma {:induction false} CollectStemsAppend(a: seq<string>, b: seq<string>, exclude: seq<string>)
    requires forall t :: t in a ==> t in Priority
    requires forall t :: t in b ==> t in Priority
    ensures CollectStems(a + b, exclude) == CollectStems(a, exclude) + CollectStems(b, exclude)
  {
    if |a| == 0 {
      assert a + b == b;
    } else {
      assert (a + b)[0] == a[0];
      assert (a + b)[1..] == a[1..] + b;
      CollectStemsAppend(a[1..], b, exclude);
    }
  }

  /** Every selected theme's stems are in the preset table. */
  predicate Covered(themes: seq<string>, presets: map<string, ParamMap>)
    requires forall t :: t in themes ==> t in Priority
  {
    forall t, s :: t in themes && s in ThemeStems(t) ==> s in presets
  }

  /** The first stem, in merge order, the preset table lacks. */
  function FirstMissing(stems: seq<string>, presets: map<string, ParamMap>): (r: Option<string>)
    ensures r.None? <==> forall s :: s in stems ==> s in presets
    ensures r.Some? ==> r.value in stems && r.value !in presets
  {
    if |stems| == 0 then None
    else if stems[0] !in presets then Some(stems[0])
    else
      assert forall s :: s in stems ==> s == stems[0] || s in stems[1..];
      FirstMissing(stems[1..], presets)
  }

  /** `[THEME_PARAMS[s] for s in stems]`. */
  function PresetMaps(stems: seq<string>, presets: map<string, ParamMap>): seq<ParamMap>
    requires forall s :: s in stems ==> s in presets
  {
    if |stems| == 0 then [] else [presets[stems[0]]] + PresetMaps(stems[1..], presets)
  }

  /** The preset maps of `a + b` are those of `a`, then those of `b`. */
  lemma {:induction false} PresetMapsAppend(a: seq<string>, b: seq<string>, presets: map<string, ParamMap>)
    requires forall s :: s in a + b ==> s in presets
    ensures PresetMaps(a + b, presets) == PresetMaps(a, presets) + PresetMaps(b, presets)
  {
    if |a| == 0 {
      assert a + b == b;
    } else {
      assert (a + b)[0] == a[0];
      assert (a + b)[1..] == a[1..] + b;
      PresetMapsAppend(a[1..], b, presets);
    }
  }

  /** `_get_parameters_dct`: reverse the priority-ordered themes, collect
      their stems, and fold the preset maps with `dict.update`, so that the
      later (higher-priority) themes overwrite. */
  function ParametersFor(themes: seq<string>, presets: map<string, ParamMap>): (r: Result<ParamMap, StyleError>)
    requires forall t :: t in themes ==> t in Priority
    ensures r.Err? ==> r.error.MissingPreset? && r.error.stem !in presets
                       && exists t :: t in themes && r.error.stem in ThemeStems(t)
  {
    var order := Reverse(themes);
    assert forall t :: t in order ==> t in Priority by {
      forall t | t in order
        ensures t in Priority
      {
        ReverseMembers(themes, t);
      }
    }
    var stems := CollectStems(order, order);
    match FirstMissing(stems, presets)
    case Some(s) =>
      StemFilterIsVacuous(order, order);
      CollectStemsMembers(order, s);
      var t :| t in order && s in ThemeStems(t);
      assert t in themes;
      Err(MissingPreset(s))
    case None => Ok(UpdateAll(map[], PresetMaps(stems, presets)))
  }

  /** Reference reading of the merge: walking the themes from the highest
      priority down, the first theme whose stems define `k` decides its
      value, and within that theme its last stem defining `k` does. */
  function ThemeWinner(themes: seq<string>, presets: map<string, ParamMap>, k: string): Option<Value>
    requires forall t :: t in themes ==> t in Priority
    requires Covered(themes, presets)
  {
    if |themes| == 0 then None
    else
      assert themes[0] in themes;
      var own := LastWriter(map[], PresetMaps(ThemeStems(themes[0]), presets), k);
      if own.Some? then own
      else
        assert forall t :: t in themes[1..] ==> t in themes;
        ThemeWinner(themes[1..], presets, k)
  }

  /** The merge fails exactly when a selected theme's stem is missing. */
  lemma {:induction false} ParametersForOkIffCovered(themes: seq<string>, presets: map<string, ParamMap>)
    requires forall t :: t in themes ==> t in Priority
    ensures ParametersFor(themes, presets).Ok? <==> Covered(themes, presets)
  {
    var order := Reverse(themes);
    forall t
      ensures t in order <==> t in themes
    {
      ReverseMembers(themes, t);
    }
    StemFilterIsVacuous(order, order);
    forall s
      ensures s in CollectStems(order, order) <==> exists t :: t in themes && s in ThemeStems(t)
    {
      CollectStemsMembers(order, s);
    }
  }

  /** The priority rule: on every key, the merged map agrees with
      `ThemeWinner`, so a theme earlier in `PRIORITY_THEME_LST` beats every
      later one (`no-latex` beats `serif` beats `dark` beats `default`). */
  lemma {:induction false} PriorityWinner(themes: seq<string>, presets: map<string, ParamMap>, k: string)
    requires forall t :: t in themes ==> t in Priority
    requires Covered(themes, presets)
    ensures ParametersFor(themes, presets).Ok?
    ensures var m := ParametersFor(themes, presets).value;
            && (k in m <==> ThemeWinner(themes, presets, k).Some?)
            && (k in m ==> m[k] == ThemeWinner(themes, presets, k).value)
  {
    ParametersForOkIffCovered(themes, presets);
    var order := Reverse(themes);
    forall t
      ensures t in order <==> t in themes
    {
      ReverseMembers(themes, t);
    }
    StemFilterIsVacuous(order, order);
    var stems := CollectStems(order, []);
    forall s | s in stems
      ensures s in presets
    {
      CollectStemsMembers(order, s);
    }
    UpdateAllLastWriter(map[], PresetMaps(stems, presets), k);
    WinnerByStems(themes, presets, k);
  }

  /** The last writer among the stems in reversed priority order is the
      priority winner. */
  lemma {:induction false} WinnerByStems(themes: seq<string>, presets: map<string, ParamMap>, k: string)
    requires forall t :: t in themes ==> t in Priority
    requires Covered(themes, presets)
    ensures forall t :: t in Reverse(themes) ==> t in Priority
    ensures forall s :: s in CollectStems(Reverse(themes), []) ==> s in presets
    ensures LastWriter(map[], PresetMaps(CollectStems(Reverse(themes), []), presets), k)
         == ThemeWinner(themes, presets, k)
  {
    var order := Reverse(themes);
    forall t
      ensures t in order <==> t in themes
    {
      ReverseMembers(themes, t);
    }
    forall s | s in CollectStems(order, [])
      ensures s in presets
    {
      CollectStemsMembers(order, s);
    }
    if |themes| > 0 {
      var head := themes[0];
      var tail := themes[1..];
      assert head in themes;
      assert forall t :: t in tail ==> t in themes;
      ReverseCons(themes);
      var rt := Reverse(tail);
      forall t
        ensures t in rt <==> t in tail
      {
        ReverseMembers(tail, t);
      }
      CollectStemsAppend(rt, [head], []);
      WithoutDisjoint(ThemeStems(head), []);
      assert CollectStems([head], []) == ThemeStems(head);
      var a := CollectStems(rt, []);
      var b := ThemeStems(head);
      WinnerByStems(tail, presets, k);
      PresetMapsAppend(a, b, presets);
      LastWriterAppend(map[], PresetMaps(a, presets), PresetMaps(b, presets), k);
    }
  }
}

=== FILE: version.dfy ===
/** `version_regex_type` in update_version.py: the argument check for the
    `--version` option. `re.match` anchors the pattern
    `[0-9]+\.[0-9]+\.[0-9]+` at the start of the string only, so anything
    may follow the three numbers. */
module Version {
  import opened Results

  predicate IsDigit(c: char) {
    '0' <= c <= '9'
  }

  /** Every character is an ASCII digit (`[0-9]`). */
  predicate AllDigits(s: string) {
    forall i :: 0 <= i < |s| ==> IsDigit(s[i])
  }

  /** The length of the leading run of digits: what greedy `[0-9]+` takes. */
  function DigitRun(s: string): (n: nat)
    ensures n <= |s|
    ensures AllDigits(s[..n])
    ensures n < |s| ==> !IsDigit(s[n])
  {
    if |s| == 0 || !IsDigit(s[0]) then 0
    else
      var n := 1 + DigitRun(s[1..]);
      assert s[..n] == [s[0]] + s[1..][..n - 1];
      n
  }

  /** `re.match(VERSION_REGEX_STR, s)` succeeds. Since `.` is not a digit,
      no backtracking into a digit run can help, so reading greedy runs
      decides the match. */
  predicate MatchesVersion(s: string): (m: bool)
    ensures m ==> 5 <= |s| && IsDigit(s[0])
  {
    var a := DigitRun(s);
    a > 0 && a < |s| && s[a] == '.' &&
    var t := s[a + 1..];
    var b := DigitRun(t);
    b > 0 && b < |t| && t[b] == '.' && DigitRun(t[b + 1..]) > 0
  }

  /** `s` begins with `digits.digits.digits` ending at `k`, with the dots
      at `i` and `j`. */
  predicate VersionShape(s: string, i: int, j: int, k: int) {
    0 < i && i + 1 < j && j + 1 < k && k <= |s|
    && s[i] == '.' && s[j] == '.'
    && AllDigits(s[..i]) && AllDigits(s[i + 1..j]) && AllDigits(s[j + 1..k])
  }

  /** The reference reading of the regular expression: some prefix of `s`
      has the shape `digits.digits.digits`. */
  ghost predicate StartsWithVersion(s: string) {
    exists i, j, k :: VersionShape(s, i, j, k)
  }

  /** A digit run that stops at a non-digit is exactly the greedy run. */
  lemma DigitRunExact(s: string, i: nat)
    requires i < |s| && AllDigits(s[..i]) && !IsDigit(s[i])
    ensures DigitRun(s) == i
  {
    var n := DigitRun(s);
    forall m | 0 <= m < i
      ensures IsDigit(s[m])
    {
      assert s[..i][m] == s[m];
    }
    forall m | 0 <= m < n
      ensures IsDigit(s[m])
    {
      assert s[..n][m] == s[m];
    }
  }

  /** The greedy reading agrees with the reference one, both ways. */
  lemma MatchesVersionIffShape(s: string)
    ensures MatchesVersion(s) <==> StartsWithVersion(s)
  {
    if MatchesVersion(s) {
      MatchGivesShape(s);
    }
    if StartsWithVersion(s) {
      var i, j, k :| VersionShape(s, i, j, k);
      ShapeGivesMatch(s, i, j, k);
    }
  }

  /** A greedy match marks out the shape. */
  lemma MatchGivesShape(s: string)
    requires MatchesVersion(s)
    ensures StartsWithVersion(s)
  {
    var a := DigitRun(s);
    var t := s[a + 1..];
    var b := DigitRun(t);
    var c := DigitRun(t[b + 1..]);
    var i, j, k := a, a + 1 + b, a + 1 + b + 1 + c;
    assert s[i + 1..j] == t[..b];
    assert s[j + 1..k] == t[b + 1..][..c];
    assert VersionShape(s, i, j, k);
  }

  /** The shape makes the greedy match succeed. */
  lemma ShapeGivesMatch(s: string, i: int, j: int, k: int)
    requires VersionShape(s, i, j, k)
    ensures MatchesVersion(s)
  {
    DigitRunExact(s, i);
    var t := s[i + 1..];
    assert t[..j - i - 1] == s[i + 1..j];
    DigitRunExact(t, j - i - 1);
    var u := t[j - i..];
    assert u == s[j + 1..];
    assert IsDigit(u[0]) by {
      assert u[0] == s[j + 1..k][0];
    }
  }

  /** `argparse.ArgumentTypeError`. */
  datatype VersionError = ArgumentTypeError

  /** `version_regex_type`: a string starting with a version is returned
      unchanged; failing that, one starting with `v` and a version loses
      the `v`; anything else is rejected. */
  function VersionArg(s: string): (r: Result<string, VersionError>)
    ensures StartsWithVersion(s) ==> r == Ok(s)
    ensures !StartsWithVersion(s) && |s| > 0 && s[0] == 'v' && StartsWithVersion(s[1..]) ==> r == Ok(s[1..])
    ensures r.Ok? <==> StartsWithVersion(s) || (|s| > 0 && s[0] == 'v' && StartsWithVersion(s[1..]))
    ensures r.Ok? ==> StartsWithVersion(r.value)
  {
    MatchesVersionIffShape(s);
    if MatchesVersion(s) then Ok(s)
    else if |s| > 0 && s[0] == 'v' && (MatchesVersionIffShape(s[1..]); MatchesVersion(s[1..])) then Ok(s[1..])
    else
      assert |s| > 0 ==> (MatchesVersionIffShape(s[1..]); true);
      Err(ArgumentTypeError)
  }

  /** Every accepted value is accepted again unchanged: the check is
      idempotent. */
  lemma VersionArgIdempotent(s: string)
    requires VersionArg(s).Ok?
    ensures VersionArg(VersionArg(s).value) == VersionArg(s)
  {
  }

  /** Text after the three numbers is accepted too; a leading `v` is
      dropped; two numbers are not enough. */
  lemma TrailingTextAccepted()
    ensures VersionArg("1.2.3-beta") == Ok("1.2.3-beta")
    ensures VersionArg("v10.0.1") == Ok("10.0.1")
    ensures VersionArg("1.2").Err?
  {
    BetaAccepted();
    LeadingVDropped();
    TwoNumbersRejected();
  }

  /** `1.2.3-beta` begins with a version. */
  lemma BetaAccepted()
    ensures VersionArg("1.2.3-beta") == Ok("1.2.3-beta")
  {
    assert VersionShape("1.2.3-beta", 1, 3, 5);
  }

  /** `v10.0.1` does not begin with a digit, but `10.0.1` is a version. */
  lemma LeadingVDropped()
    ensures VersionArg("v10.0.1") == Ok("10.0.1")
  {
    var s := "v10.0.1";
    assert s[1..] == "10.0.1";
    assert VersionShape("10.0.1", 2, 4, 6);
    assert DigitRun(s) == 0;
    MatchesVersionIffShape(s);
  }

  /** `1.2` stops after two numbers, and `.2` does not start with one. */
  lemma TwoNumbersRejected()
    ensures VersionArg("1.2").Err?
  {
    var s := "1.2";
    assert s[..1] == "1";
    DigitRunExact(s, 1);
    assert s[2..] == "2";
    assert DigitRun("2") == 1;
    MatchesVersionIffShape(s);
    assert s[1..] == ".2";
    assert DigitRun(".2") == 0;
    MatchesVersionIffShape(".2");
  }
}
